=== FILE: README.md ===
# Sentinel core logic in Dafny

Sentinel is a compliance prototype for detecting insider trading on the Indonesian
stock exchange. Most of its code wraps machine-learning libraries, web frameworks and I/O.
This project models the deterministic logic scattered through those files and proves what it promises:

- **Query sanitiser and RAG bookkeeping** (`Rag.dfy`):
  - `sanitize_query` type-checks the query, truncates it, applies a case-insensitive deny-list, removes NUL characters and strips the result.
  - `process_documents` / `process_text` stamp every chunk with `doc_id` and `chunk_id`, and write `doc_id` into the caller's metadata dicts in place.
  - `generate_answer` builds its blocked, error and answered response shapes.
  - `evaluate_retrieval` computes precision@k and its mean.
  - The text splitter, the vector store and the language model are function parameters.
- **Transaction loader** (`Loaders.dfy`):
  - the path-traversal gate of `load_specific_file`, with path resolution and the file system as parameters;
  - the required-column check;
  - the cut points of the train/validation/test split;
  - `get_train_test_split`;
  - the column check of `get_feature_matrix`.
- **Rule-based analysis** (`AnalysisService.dfy`):
  - the three threshold rules and the alerts they raise;
  - the severity-weighted risk score;
  - the de-duplicated citation list.
  - `Format.dfy` renders the thousands-grouped volume that appears in alert descriptions.
- **API records** (`Schemas.dfy`): the field constraints and defaults of `TransactionData`, `Alert`, `Citation`, `AnalysisRequest` and `AnalysisResponse`.
- **Tabular validation** (`Validation.dfy`, over the frame model in `Frames.dfy`):
  - a small model of a lazy column-schema validator;
  - the transaction and news schemas built on it;
  - proofs that each schema means the field-by-field row predicate it is meant to encode.
- **API-key check** (`Auth.dfy`): the configured key set and the 401 / 403 / accept decision.
- **Small utilities**:
  - `clean_text` of the news scraper (`NewsText.dfy`);
  - the comment stripper and `categorize_extensions` of the VS Code extension check (`Extensions.dfy`);
  - the POJK collector (`Pojk.dfy`): its search list, its file names and URL slugs, `download_pdf`, and the counting loop of `collect_all`. The collector is a class whose `files` and `metadata` the methods update.
- **Shared modules**:
  - `PyStr.dfy` models the Python string operations the code relies on: `lower`, slicing with negative bounds, `replace`, `strip`, `split`, `join`, `in`.
  - `Seqs.dfy` holds order-preserving filters.
  - `Wrappers.dfy` holds `Option` and `Result`.

The exceptions the modelled functions raise themselves, and the LLM failure that `generate_answer` catches, are `Err` values or error outcomes; exceptions escaping from the vector-store search are not modelled (see "Left out"). A caller's state that the
source mutates (metadata dicts, the collector's directory and list) is modelled as class fields.

## Model

| member | source | states |
|---|---|---|
| Rag.FirstForbidden | src/sentinel/models/rag.py:43-63 | no result exactly when no deny-list pattern occurs; otherwise a listed pattern that occurs |
| Rag.FirstForbiddenIsFirst | src/sentinel/models/rag.py:57-63 | a reported pattern is preceded in the list only by patterns that do not occur |
| Rag.EarliestIsReturned | src/sentinel/models/rag.py:57-63 | when pattern i occurs and no earlier one does, pattern i is the one reported |
| Rag.HasForbidden | src/sentinel/models/rag.py:57-58 | holds exactly when one of the ten patterns occurs in the lowered text |
| Rag.Sanitize | src/sentinel/models/rag.py:36-68 | non-string input fails with "must be a string"; a string fails exactly when its truncated, lowered text contains a pattern, naming a listed pattern that occurs; an accepted result is at most `max_length` long, holds no NUL and has no surrounding whitespace |
| Rag.ErrorMessage | src/sentinel/models/rag.py:37-63 | the message text of the two sanitiser errors: not a string, or the forbidden pattern with the request to rephrase |
| Rag.CleanQueryUnchanged | src/sentinel/models/rag.py:40-68 | a query within the length limit, without NUL, already stripped and free of every pattern comes back unchanged |
| Rag.LowerIdempotent | src/sentinel/models/rag.py:56 | lowering twice equals lowering once |
| Rag.LowerTake | src/sentinel/models/rag.py:40-56 | truncating then lowering equals lowering then truncating |
| Rag.BlockingIgnoresCase | src/sentinel/models/rag.py:56-58 | a query is blocked exactly when its lower-case spelling is blocked |
| Rag.UpperCaseImportBlocked | src/sentinel/models/rag.py:56-63 | "IMPORT OS" is rejected with the pattern "import " |
| Rag.NulSplitPatternPassesOnce | src/sentinel/models/rag.py:56-66 | "imp\0ort x" passes and yields "import x", and sanitising that output again rejects it, so the sanitiser is not idempotent |
| Rag.NulSplitPasses | src/sentinel/models/rag.py:56-68 | "imp\0ort x" is accepted as "import x": the deny-list runs before NUL removal |
| Rag.ImportBlocked | src/sentinel/models/rag.py:56-63 | "import x" is rejected with "import " |
| Rag.AcceptedCleaned | src/sentinel/models/rag.py:56-68 | when none of the ten patterns occurs in the lower-cased truncated text, the text is accepted as that truncation without NUL characters, stripped |
| Rag.RejectedWithFirst | src/sentinel/models/rag.py:57-63 | when pattern i occurs in the lower-cased truncated text and no earlier pattern does, the text is rejected naming pattern i |
| Rag.ImportFirst | src/sentinel/models/rag.py:43-58 | text beginning with "import " is caught by the first pattern |
| Rag.ProcessText | src/sentinel/models/rag.py:100-122 | one chunk per splitter piece |
| Rag.ProcessTextShape | src/sentinel/models/rag.py:111-119 | chunk i carries piece i and the caller's metadata with `chunk_id` = i added, every other entry kept |
| Rag.LastUse | src/sentinel/models/rag.py:136-139 | the last document index below `n` that shares a given dict, or -1 |
| Rag.ProcessDocuments | src/sentinel/models/rag.py:124-145 | the output is the concatenation of the documents' chunk lists in input order, each stamped with the metadata as it was, its `doc_id` set; each caller dict ends with `doc_id` = the last index of a document sharing it |
| Rag.ChunkProvenance | src/sentinel/models/rag.py:116-142 | chunk `c` of document `j` sits at offset(j)+c and carries `doc_id` j and `chunk_id` c |
| Rag.BlockedQuestion | src/sentinel/models/rag.py:305 | a query of at most 100 characters is echoed whole; a longer one becomes its first 100 characters plus "..." |
| Rag.Context | src/sentinel/models/rag.py:316 | the retrieved chunk texts joined by blank lines, in retrieval order |
| Rag.GenerateAnswer | src/sentinel/models/rag.py:289-343 | blocked exactly when the sanitiser rejects: no sources, the echoed question, the error text; otherwise the sanitised query drives retrieval and generation, `num_sources` equals the number of sources, `sanitized` records whether the query changed, an answer is the model's text over the joined source contents, and a generation failure keeps the error message and answers with the error prefix plus its first 100 characters |
| Rag.BlockedQueryUsesNoBackend | src/sentinel/models/rag.py:300-310 | a blocked response does not depend on the vector store or the model and has no sources |
| Rag.OnlySanitizedQueryReachesBackends | src/sentinel/models/rag.py:312-340 | two queries that sanitise alike get the same question, sources and answer |
| Rag.Precision | src/sentinel/models/rag.py:366-367 | the share of retrieved ids that were expected lies in [0, 1] and is 1 exactly when every retrieved id was expected |
| Rag.Scores | src/sentinel/models/rag.py:355-368 | one score per test case with expected ids, each in [0, 1] |
| Rag.Mean | src/sentinel/models/rag.py:371 | 0.0 for no scores, else the mean, within [0, 1] |
| Rag.SumBounds | src/sentinel/models/rag.py:371 | the sum of scores in [0, 1] lies between 0 and their count |
| Rag.ScoresSnoc | src/sentinel/models/rag.py:357-368 | one more test case appends its precision only when it has expected ids |
| Rag.EvaluateRetrieval | src/sentinel/models/rag.py:345-374 | fails (division by zero) exactly when some test with expected ids retrieves nothing; otherwise the scores in order, their mean in [0, 1] and the number of queries |
| Loaders.LoadSpecificFile | src/sentinel/data/loaders.py:55-87 | refused as traversal exactly when the name contains ".." or starts with "/" or "\\"; "invalid path" exactly when resolution fails or leaves the data directory; "file not found" exactly when a name inside the directory names no file; otherwise the read frame goes through the required-column check, so a load succeeds exactly for an existing file inside the directory that has every required column |
| Loaders.IsTraversal | src/sentinel/data/loaders.py:59 | the syntactic traversal test: the name holds two consecutive dots, or begins with "/" or a backslash |
| Loaders.TraversalRefusedBeforeAccess | src/sentinel/data/loaders.py:59-63 | a traversal name gets the same refusal whatever the file system holds |
| Loaders.ResolvedOutsideRefused | src/sentinel/data/loaders.py:67-75 | a syntactically clean name that resolves outside the directory is refused |
| Loaders.AttackNamesAreTraversal | src/sentinel/data/loaders.py:59 | "../../../etc/passwd", "/etc/passwd", "\\windows\\system32" and "data/../../../etc/passwd" are traversal names |
| Loaders.OrdinaryNameNotTraversal | src/sentinel/data/loaders.py:59 | "test_data.csv" is not a traversal name |
| Loaders.ValidateSchema | src/sentinel/data/loaders.py:89-100 | passes the frame through exactly when all 11 required columns are present; otherwise lists exactly the missing ones, in required order |
| Frames.MissingColumns | src/sentinel/data/loaders.py:97 | the missing list holds exactly the required columns absent from the frame, in required order |
| Loaders.Trunc | src/sentinel/data/loaders.py:132-133 | `int(x)` truncates toward zero |
| Loaders.Cuts | src/sentinel/data/loaders.py:131-133 | the two cut points: the train end is the truncated product n·train, and the val end adds the truncated product n·val |
| Loaders.CutsFloors | src/sentinel/data/loaders.py:131-133 | with non-negative ratios the cuts are floor(n·train) and that plus floor(n·val), and they fit in n when train+val ≤ 1 |
| Loaders.FloorsFit | src/sentinel/data/loaders.py:131-133 | two floors of shares of n that sum to at most 1 fit inside n |
| Loaders.TrainValTestSplit | src/sentinel/data/loaders.py:104-144 | refused exactly when the ratios do not sum to 1 within 0.01; with non-negative ratios the three parts concatenate back to the sorted rows |
| Loaders.SplitSizes | src/sentinel/data/loaders.py:131-139 | the parts have floor(n·train) and floor(n·val) rows and the test part has the rest |
| Loaders.PartitionAt | src/sentinel/data/loaders.py:135-139 | slicing at two ordered cut points partitions the rows |
| Loaders.NegativeValRatioDuplicates | src/sentinel/data/loaders.py:125-139 | ratios (1.0, -0.2, 0.2) pass the sum check, yet the parts overlap and count rows twice |
| Loaders.TrainTestSplit | src/sentinel/data/loaders.py:255-263 | fails only when the default directory is missing; the validation part is always empty and train plus test give the rows back |
| Loaders.Select | src/sentinel/data/loaders.py:173 | the selection has the requested columns and as many rows as the input, and each selected cell is the input's cell; it holds no other column |
| Loaders.ColumnValues | src/sentinel/data/loaders.py:174 | one value per row, read from the column |
| Loaders.FeatureMatrix | src/sentinel/data/loaders.py:146-179 | fails exactly when a feature column is missing, listing exactly those in order; otherwise X has the feature columns, with every cell copied from the input, and y holds the `is_suspicious` values, both with the input's row count |
| AnalysisService.AnalyzeTransaction | src/sentinel/api/services/analysis_service.py:96-136 | at most three alerts, titles in rule order |
| AnalysisService.VolumeRule | src/sentinel/api/services/analysis_service.py:105 | rule 1 fires when the volume exceeds 100000 |
| AnalysisService.SellingRule | src/sentinel/api/services/analysis_service.py:114 | rule 2 fires on a SELL whose volume exceeds 50000 |
| AnalysisService.RoleRule | src/sentinel/api/services/analysis_service.py:123 | rule 3 fires for a Director or a Commissioner |
| AnalysisService.VolumeAlert | src/sentinel/api/services/analysis_service.py:106-111 | the HIGH "Unusual Volume" alert, describing the grouped volume, with the internal volume policy as its rule |
| AnalysisService.SellingAlert | src/sentinel/api/services/analysis_service.py:115-120 | the MEDIUM "Significant Insider Selling" alert naming the role and grouped volume, with POJK 30/2016 as its rule |
| AnalysisService.RoleAlert | src/sentinel/api/services/analysis_service.py:124-129 | the MEDIUM "High-Level Insider Activity" alert naming the role, with POJK 33/2014 as its rule |
| AnalysisService.AlertsMatchRules | src/sentinel/api/services/analysis_service.py:104-129 | the volume alert is present iff volume > 100000; the selling alert iff action is SELL and volume > 50000; the role alert iff the role is Director or Commissioner; nothing else |
| AnalysisService.TitlesInRuleOrder | src/sentinel/api/services/analysis_service.py:102-136 | any selection of the three titles kept in rule order is in rule order |
| AnalysisService.AlertSeverities | src/sentinel/api/services/analysis_service.py:104-129 | every raised alert is HIGH or MEDIUM |
| AnalysisService.Weight | src/sentinel/api/services/analysis_service.py:143-150 | every severity weighs between 0.25 and 1 (unknown 0.5) |
| AnalysisService.TotalWeight | src/sentinel/api/services/analysis_service.py:150 | the summed weight lies between 0.25 and 1 per alert |
| AnalysisService.RiskScore | src/sentinel/api/services/analysis_service.py:138-152 | in [0, 1], 0 exactly for no alerts, at least 0.25 otherwise |
| AnalysisService.CapNeverBinds | src/sentinel/api/services/analysis_service.py:152 | for alerts the score equals the plain mean weight; the cap never changes it |
| AnalysisService.UniformSeverity | src/sentinel/api/services/analysis_service.py:150-152 | alerts sharing one severity score that severity's weight |
| AnalysisService.UniformTotal | src/sentinel/api/services/analysis_service.py:150 | their total is count × weight |
| AnalysisService.HalfOrMore | src/sentinel/api/services/analysis_service.py:150-152 | HIGH and MEDIUM alerts score at least 0.5 |
| AnalysisService.HalfOrMoreTotal | src/sentinel/api/services/analysis_service.py:150 | HIGH and MEDIUM alerts weigh at least 0.5 each in total |
| AnalysisService.AnalysisRisk | src/sentinel/api/services/analysis_service.py:102-152 | the score of an analysis is 0 exactly when no rule fires, and at least 0.5 otherwise |
| AnalysisService.AnalysisYieldsValidResponse | src/sentinel/api/models/schemas.py:61-71 | the analyser's alerts, score and citations always build a valid response, and every alert has a valid severity |
| AnalysisService.RuleSource | src/sentinel/api/services/analysis_service.py:161 | the source is stripped and contains no "-" |
| AnalysisService.CitationOf | src/sentinel/api/services/analysis_service.py:158-164 | an alert with a non-empty `rule_violated` gives the citation of its rule source with "Article 1" and the fixed text; any other alert gives none |
| AnalysisService.AllCitations | src/sentinel/api/services/analysis_service.py:156-164 | at most one citation per alert |
| AnalysisService.AllCitationsFromRules | src/sentinel/api/services/analysis_service.py:158-164 | every citation cites "Article 1" and names the stripped text before "-" of some alert's non-empty rule; alerts without a rule give none |
| AnalysisService.AllCitationsExact | src/sentinel/api/services/analysis_service.py:158-164 | the collected citations are, in alert order, exactly one per alert with a non-empty rule: the k-th is the citation of the k-th such alert |
| AnalysisService.EveryRuleCited | src/sentinel/api/services/analysis_service.py:156-175 | every alert with a non-empty rule has its citation collected, and its (source, article) key is among the de-duplicated citations |
| AnalysisService.KeysSnoc | src/sentinel/api/services/analysis_service.py:170-172 | appending a citation adds exactly its key to the seen set |
| AnalysisService.FirstByKey | src/sentinel/api/services/analysis_service.py:166-173 | the kept citations cover every key and are no more than the input |
| AnalysisService.FirstByKeyUnique | src/sentinel/api/services/analysis_service.py:166-175 | no two kept citations share (source, article) |
| AnalysisService.FirstByKeyOrdered | src/sentinel/api/services/analysis_service.py:166-175 | the kept citations keep the input order |
| AnalysisService.SubsequenceSnoc | src/sentinel/api/services/analysis_service.py:169-173 | appending to both lists, with or without keeping the element, keeps a subsequence |
| AnalysisService.FirstOccurrenceKept | src/sentinel/api/services/analysis_service.py:169-173 | a citation whose key did not occur earlier is kept |
| AnalysisService.GetCitations | src/sentinel/api/services/analysis_service.py:154-175 | the two loops compute the de-duplicated citation list, at most one per alert |
| Format.DigitChar | src/sentinel/api/services/analysis_service.py:109 | a digit value renders as a digit character |
| Format.Decimal | src/sentinel/api/services/analysis_service.py:109 | `str(n)` is a non-empty digit string without a leading zero |
| Format.DecimalRoundTrip | src/sentinel/api/services/analysis_service.py:109 | reading the digits back gives n |
| Format.Pad3 | src/sentinel/api/services/analysis_service.py:109 | a lower group is three characters without separators |
| Format.FormatThousands | src/sentinel/api/services/analysis_service.py:109-118 | the comma-grouped form with a leading minus for negatives: removing its commas gives the sign followed by the decimal digits of the magnitude |
| Format.GroupedDigits | src/sentinel/api/services/analysis_service.py:109 | removing the commas of `f"{n:,}"` gives `str(n)` |
| Format.DecimalSplit | src/sentinel/api/services/analysis_service.py:109 | `str(n)` ends with the padded `n % 1000` |
| Schemas.TransactionFailures | src/sentinel/api/models/schemas.py:14-19 | empty exactly for a valid transaction; names a field iff its constraint (role, action, volume > 0, price > 0) is broken |
| Schemas.BuildTransaction | src/sentinel/api/models/schemas.py:9-19 | accepted unchanged exactly when role and action are allowed and volume and price positive; else the failing fields |
| Schemas.BuildAlert | src/sentinel/api/models/schemas.py:35-42 | accepted exactly for the four severities; `rule_violated` defaults to None |
| Schemas.BuildRequest | src/sentinel/api/models/schemas.py:52-58 | accepted exactly for a valid transaction; omitted options become an empty dict |
| Schemas.BuildResponse | src/sentinel/api/models/schemas.py:61-71 | accepted exactly when 0 ≤ risk score ≤ 1; alerts and citations default to empty and the timestamp to now |
| Validation.ColumnFailuresEmpty | src/sentinel/data/validation.py:103 | a column reports no failure exactly when it is present, all cells pass and, if unique, its values are distinct |
| Validation.FailuresEmpty | src/sentinel/data/validation.py:103 | a schema reports nothing exactly when each of its columns holds |
| Validation.Validate | src/sentinel/data/validation.py:103 | returns the frame unchanged exactly when every column holds, otherwise a non-empty failure set |
| Validation.MissingColumnReported | src/sentinel/data/validation.py:68 | an absent schema column is always reported |
| Validation.RowHasColumn | src/sentinel/data/validation.py:68 | in a well-formed frame, every row has every column |
| Validation.ColumnNames | src/sentinel/data/validation.py:13-70 | the schema's column names in order |
| Validation.ColumnsAsRows | src/sentinel/data/validation.py:13-70 | checking column by column equals: columns present, every row passes, unique columns distinct |
| Validation.TableMeaning | src/sentinel/data/validation.py:13-70 | with only the first column unique, the schema holds exactly when the columns are present, every row passes and the first column is distinct |
| Validation.TransactionRowPasses | src/sentinel/data/validation.py:13-66 | a row passing the transaction schema has a listed ticker, a listed role, BUY/SELL, 0<volume<10,000,000, 0<price<100,000, total_value>0, 0≤days_to_earnings≤90, a boolean flag and a nullable violation type |
| Validation.TransactionRowAccepted | src/sentinel/data/validation.py:13-66 | a row with those fields passes the transaction schema |
| Validation.TransactionRowAcceptedFrom | src/sentinel/data/validation.py:13-66 | a valid row passes each column in a range of the schema |
| Validation.TransactionUniqueColumn | src/sentinel/data/validation.py:15 | only `transaction_id` must be distinct |
| Validation.TransactionSchemaMeaning | src/sentinel/data/validation.py:13-70 | the schema holds exactly when every column is present, every row is valid and transaction ids are distinct |
| Validation.TransactionRowsMeaning | src/sentinel/data/validation.py:14-66 | all rows pass the schema exactly when all rows are valid |
| Validation.ValidateTransactionData | src/sentinel/data/validation.py:89-109 | returns the frame unchanged (same row count) exactly for a valid table; otherwise fails with a non-empty failure set |
| Validation.TransactionMissingColumn | src/sentinel/data/validation.py:68 | a frame lacking a schema column fails, naming that column |
| Validation.NewsRowPasses | src/sentinel/data/validation.py:74-86 | a row passing the news schema has non-null strings, a title of ≥10 and content of ≥50 characters |
| Validation.NewsRowAccepted | src/sentinel/data/validation.py:74-86 | such a row passes the news schema |
| Validation.NewsRowAcceptedFrom | src/sentinel/data/validation.py:74-86 | a valid news row passes each column in a range of the schema |
| Validation.NewsUniqueColumn | src/sentinel/data/validation.py:76 | only `url` must be distinct |
| Validation.NewsSchemaMeaning | src/sentinel/data/validation.py:74-86 | the news schema holds exactly when columns are present, rows valid and URLs distinct |
| Validation.ValidateNewsData | src/sentinel/data/validation.py:112-132 | returns the frame unchanged (same row count) exactly for a valid news table, otherwise a non-empty failure set |
| Validation.WithColumn | src/sentinel/data/validation.py:68 | adding a column keeps the row count |
| Validation.ColumnHoldsWithExtra | src/sentinel/data/validation.py:68 | an extra column keeps the frame well formed and leaves every other column's verdict unchanged |
| Validation.ExtraColumnIgnored | src/sentinel/data/validation.py:68 | extra columns never change the verdict of validation |
| Auth.ValidApiKeys | src/sentinel/api/middleware/auth.py:12 | no key contains a comma; a comma-free configuration is itself a key |
| Auth.SingleKey | src/sentinel/api/middleware/auth.py:12 | a value without commas configures exactly that key |
| Auth.DefaultKeySet | src/sentinel/api/middleware/auth.py:12 | unset, the key set is {"dev-key-12345"} |
| Auth.KeysFromList | src/sentinel/api/middleware/auth.py:12 | a comma-joined list yields exactly its entries, untrimmed |
| Auth.VerifyApiKey | src/sentinel/api/middleware/auth.py:15-48 | 401 MISSING_API_KEY exactly for an absent or empty header; 403 INVALID_API_KEY exactly for a present key outside the set; otherwise the key itself, which is in the set |
| Auth.MissingBeforeMembership | src/sentinel/api/middleware/auth.py:28-38 | a missing key is 401 whatever keys are configured |
| Auth.EmptyConfiguredKeyStillMissing | src/sentinel/api/middleware/auth.py:12-38 | with API_KEYS="a,,b" the empty key is configured, yet an empty header is still 401 |
| NewsText.CleanText | scripts/data/scrape_news.py:59-63 | "" for None or empty input; the result is stripped, single-spaced and has the input's words |
| NewsText.CleanTextIdempotent | scripts/data/scrape_news.py:63 | cleaning a cleaned text changes nothing |
| NewsText.JoinWordsSingleSpaced | scripts/data/scrape_news.py:63 | words joined by spaces have single spaces only between words |
| Extensions.CommentFree | scripts/setup/check_vscode_extensions.py:43-45 | the prefix of the line before its first "//"; a line without "//" is unchanged |
| Extensions.StripComments | scripts/setup/check_vscode_extensions.py:38-48 | the line count is kept and each line becomes its comment-free prefix |
| Extensions.CategorizeExtensions | scripts/setup/check_vscode_extensions.py:53-68 | the two lists are the recommended entries that are and are not installed (ignoring case), in input order, and their lengths sum to the input length |
| Extensions.CategoriesOrderedAndCaseInsensitive | scripts/setup/check_vscode_extensions.py:55-66 | both lists are subsequences of the input; an entry is listed as installed iff some installed id equals it ignoring case |
| Pojk.UrlSlugShape | scripts/data/collect_pojk.py:77 | a slug is as long as the number, has no "/" and no upper-case letter |
| Pojk.UrlSlug | scripts/data/collect_pojk.py:77 | the number with "/" replaced by "-", lower-cased |
| Pojk.KeywordEntriesLayout | scripts/data/collect_pojk.py:73-80 | one keyword yields one entry per number, in order, with that number's title, URL, keyword and source |
| Pojk.SearchListLength | scripts/data/collect_pojk.py:55-80 | the list has numbers × keywords entries |
| Pojk.SearchListBlock | scripts/data/collect_pojk.py:55-80 | the k-th block of the list is exactly keyword k's entries |
| Pojk.SearchEach | scripts/data/collect_pojk.py:55-80 | the nested loops build the search list |
| Pojk.SearchPojk | scripts/data/collect_pojk.py:37-83 | returns the search list: 9 entries per keyword, keyword after keyword |
| Pojk.KeywordEntries | scripts/data/collect_pojk.py:72-79 | one search entry per regulation number for a keyword, in number order |
| Pojk.SearchList | scripts/data/collect_pojk.py:55-80 | the entries of each keyword in turn, keyword after keyword |
| Pojk.FileNameShape | scripts/data/collect_pojk.py:196 | a file name has no "/", ends in ".pdf" and is four characters longer than the number |
| Pojk.FileName | scripts/data/collect_pojk.py:196 | the number with "/" replaced by "-", followed by ".pdf" |
| Pojk.IsPdfResponse | scripts/data/collect_pojk.py:99-104 | a successful response whose Content-Type (empty when absent) contains "pdf" in any letter case |
| Pojk.RunTallies | scripts/data/collect_pojk.py:188-217 | downloaded plus failed equals examined; every examined entry ends with its file stored or its number among the failures; metadata only for fresh PDF downloads whose files were written; every failure is a refused entry; an early stop means the limit was reached; no file removed |
| Pojk.CollectBounds | scripts/data/collect_pojk.py:191-217 | at most min(len(list), max_documents) entries are examined, downloaded never exceeds them, and a short run means the limit was reached |
| Pojk.StoppedStays | scripts/data/collect_pojk.py:216-217 | after the loop breaks, the remaining entries change nothing |
| Pojk.Step | scripts/data/collect_pojk.py:196-217 | one loop iteration: skip and count an already-present file; otherwise fetch, count and record a PDF or record a failure, then stop once the count reaches the limit |
| Pojk.Run | scripts/data/collect_pojk.py:188-217 | the iterations applied in turn over the entries, from a zero count and the existing directory |
| Pojk.Collector.constructor | scripts/data/collect_pojk.py:26-35 | a collector starts with the existing directory and empty metadata |
| Pojk.Collector.DownloadPdf | scripts/data/collect_pojk.py:85-118 | succeeds exactly for a response whose Content-Type contains "pdf" in any case, and writes the file only then; metadata is untouched |
| Pojk.Collector.Collect | scripts/data/collect_pojk.py:186-217 | the loop leaves `downloaded`, the directory and the metadata exactly as the step-by-step run over `list[:max_documents]` says |
| Pojk.Collector.CollectAll | scripts/data/collect_pojk.py:171-234 | the same for the manual list, returning `downloaded` |
| PyStr.LowerChar | src/sentinel/models/rag.py:56 | an upper-case ASCII letter maps to its lower case, anything else is kept |
| PyStr.Lower | src/sentinel/models/rag.py:56 | keeps the length and lowers each character |
| PyStr.SliceBound | src/sentinel/models/rag.py:40 | a slice bound is normalised into [0, len] as Python does, negatives counted from the end |
| PyStr.Take | src/sentinel/models/rag.py:40 | `s[:n]` is the prefix up to the normalised bound, at most n long |
| PyStr.Slice | src/sentinel/data/loaders.py:137 | `s[a:b]` is no longer than s |
| PyStr.Drop | src/sentinel/data/loaders.py:138 | `s[n:]` is the suffix from the normalised bound |
| PyStr.RemoveChar | src/sentinel/models/rag.py:66 | removes every occurrence, keeps only characters of the input, and changes nothing when absent |
| PyStr.RemoveCharAppend | src/sentinel/models/rag.py:66 | removal distributes over concatenation |
| PyStr.ReplaceChar | scripts/data/collect_pojk.py:196 | keeps the length and replaces exactly the given character |
| PyStr.LStrip | src/sentinel/models/rag.py:68 | drops exactly the leading whitespace |
| PyStr.RStrip | src/sentinel/models/rag.py:68 | drops exactly the trailing whitespace |
| PyStr.Strip | src/sentinel/models/rag.py:68 | no whitespace at either end, only characters of the input, and a stripped input unchanged |
| PyStr.ContainsAt | src/sentinel/models/rag.py:58 | `p in s` holds exactly when p occurs at some index |
| PyStr.AbsentChar | src/sentinel/models/rag.py:58 | a pattern with a character the text lacks does not occur |
| PyStr.ContainsChar | scripts/setup/check_vscode_extensions.py:43 | a one-character pattern occurs exactly when its character does |
| PyStr.Join | scripts/setup/check_vscode_extensions.py:48 | joining one part gives that part |
| PyStr.Split | src/sentinel/api/middleware/auth.py:12 | never empty, and no part contains the separator |
| PyStr.JoinSplit | scripts/setup/check_vscode_extensions.py:39-48 | joining the parts of a split gives the string back |
| PyStr.SplitCons | src/sentinel/api/middleware/auth.py:12 | a separator-free piece followed by the separator splits off as one part |
| PyStr.SplitNone | src/sentinel/api/middleware/auth.py:12 | a separator-free string splits into itself |
| PyStr.SplitJoin | scripts/setup/check_vscode_extensions.py:39-48 | splitting a join of separator-free parts gives the parts back |
| PyStr.BeforeFirst | scripts/setup/check_vscode_extensions.py:45 | the prefix before the first occurrence of the separator, the whole string when it is absent |
| PyStr.Word | scripts/data/scrape_news.py:63 | the leading run of non-whitespace |
| PyStr.Words | scripts/data/scrape_news.py:63 | `split()` yields non-empty whitespace-free words |
| PyStr.WordOfWord | scripts/data/scrape_news.py:63 | a word followed by whitespace or nothing is read back as itself |
| PyStr.WordsOfJoin | scripts/data/scrape_news.py:63 | splitting words joined by spaces gives the words back |
| PyStr.JoinWordsStripped | scripts/data/scrape_news.py:63 | words joined by spaces have no surrounding whitespace |
| Seqs.Filter | scripts/setup/check_vscode_extensions.py:62-66 | keeps exactly the elements satisfying the test, none added |
| Seqs.FilterIsSubsequence | scripts/setup/check_vscode_extensions.py:62-66 | the filtered list keeps the input order |
| Seqs.SubsequenceOfTail | scripts/setup/check_vscode_extensions.py:62-66 | a subsequence of a tail is a subsequence of the list |
| Seqs.SubsequenceDropHead | scripts/setup/check_vscode_extensions.py:62-66 | dropping the first element of a subsequence keeps it one |
| Seqs.FilterSnoc | scripts/setup/check_vscode_extensions.py:62-66 | filtering one more element appends it exactly when it passes |
| Seqs.FilterStep | scripts/setup/check_vscode_extensions.py:62-66 | the same for a prefix extended by its next element |
| Seqs.FilterComplement | scripts/setup/check_vscode_extensions.py:62-66 | a filter and its complement together hold every element once |

## Left out

- LangChain, HuggingFace, Chroma and Ollama: the text splitter, the vector-store search and the LLM chain are function parameters. The embedding manager and pipeline construction are not modelled.
- A failing `similarity_search`: `retrieve_documents` calls it outside any `try`, so an exception from the vector store propagates out of `generate_answer` and `evaluate_retrieval`. The retrieval parameter always returns chunks, so Rag.GenerateAnswer and Rag.EvaluateRetrieval do not model that exception outcome.
- `str.lower()` maps only the ASCII letters A–Z. Python also lowers other Unicode letters, which cannot change whether an ASCII deny-list pattern matches.
- Floats: ratios, prices, weights and scores are exact reals. The 0.01 tolerance check and `int(n * ratio)` are exact rather than IEEE rounded.
- `sort_values` in the split: the model takes rows that are already sorted. Sort stability is not modelled.
- `load_latest_synthetic`, `NewsDataLoader` and `RegulationDataLoader`: not modelled. They depend on globbing, modification times and CSV parsing.
- Loaders.LoadSpecificFile: `Path.resolve` and the file system (existence, CSV reading) are parameters. Symlink resolution is therefore only as faithful as the supplied function.
- pandera: the model does not coerce types (`coerce=True`); a cell must already have the column's type. Null handling is simplified to a single `Null` cell. Lazy validation reports its failures as a set, so their order is not modelled.
- `get_data_quality_report` and `src/sentinel/data/utils.py`: not modelled; they are statistics over pandas frames.
- Rag.GenerateAnswer takes a string query only. For a non-string query the blocked branch would slice or measure a value that is not a string.
- Logging, `print`, `time.sleep`, `_save_metadata` (writing metadata.json) and the summary printout of `collect_all`: not modelled; they do not affect the results.
- The HTTP session, timeouts and exceptions in `download_pdf` and file-write errors: all are folded into a single failure result of the fetch parameter.
- `search_pojk`'s `base_urls` list: not modelled, because it is never used.
- Pojk.RunTallies: states that every failed number belongs to a refused entry, that every examined entry is either stored or failed, and that failures plus downloads count each examined entry once. It does not state the order of the `failed` list, nor which already-present files were counted.
- Schemas: an explicit `None` for `options` is kept apart from an omitted field. The FastAPI routing, JSON parsing and `datetime` parsing are not modelled; timestamps are strings and the current time is a parameter.
- `get_recommended_extensions`: the `json.loads` of the extensions file and `data.get('recommendations', [])` are not modelled. Extensions.StripComments models the comment stripping that precedes them, and the categorisation takes the recommended list as a parameter.
- The scraper's fetching and parsing, the `/health` probe, MLflow tracking and the setup scripts: not modelled; they are network or process calls.
- The concrete query "Apa itu insider trading menurut POJK?": not stated separately. Rag.CleanQueryUnchanged covers every clean query of that form.

=== FILE: AnalysisService.dfy ===
/**
  The rule-based part of `AnalysisService`: three threshold rules that raise
  alerts, the severity-weighted risk score, and the de-duplicated citation
  list derived from the alerts' `rule_violated` texts.
*/
module AnalysisService {
  import opened Wrappers
  import opened PyStr
  import opened Seqs
  import opened Format
  import opened Schemas

  // ---------------------------------------------------------------------------
  // _analyze_transaction
  // ---------------------------------------------------------------------------

  const VolumeThreshold: int := 100000
  const SellingThreshold: int := 50000

  const VolumeTitle: string := "Unusual Volume"
  const SellingTitle: string := "Significant Insider Selling"
  const RoleTitle: string := "High-Level Insider Activity"

  /** The three rule titles in the order the rules run. */
  const RuleTitles: seq<string> := [VolumeTitle, SellingTitle, RoleTitle]

  predicate VolumeRule(t: TransactionData) {
    t.volume > VolumeThreshold
  }

  predicate SellingRule(t: TransactionData) {
    t.action == "SELL" && t.volume > SellingThreshold
  }

  predicate RoleRule(t: TransactionData) {
    t.insiderRole in ["Director", "Commissioner"]
  }

  function VolumeAlert(t: TransactionData): Alert {
    Alert("HIGH", VolumeTitle,
          "Transaction volume (" + FormatThousands(t.volume) + ") exceeds typical threshold",
          Some("Internal Policy - Volume Threshold"))
  }

  function SellingAlert(t: TransactionData): Alert {
    Alert("MEDIUM", SellingTitle,
          t.insiderRole + " sold " + FormatThousands(t.volume) + " shares",
          Some("POJK 30/2016 - Monitoring Required"))
  }

  function RoleAlert(t: TransactionData): Alert {
    Alert("MEDIUM", RoleTitle, t.insiderRole + " transaction recorded",
          Some("POJK 33/2014 - Disclosure Required"))
  }

  function Titles(alerts: seq<Alert>): (ts: seq<string>)
    ensures |ts| == |alerts|
    ensures forall i :: 0 <= i < |alerts| ==> ts[i] == alerts[i].title
  {
    seq(|alerts|, i requires 0 <= i < |alerts| => alerts[i].title)
  }

  /** `_analyze_transaction`: the alerts of the rules that fire, in rule order. */
  function AnalyzeTransaction(t: TransactionData): (alerts: seq<Alert>)
    ensures |alerts| <= 3
    ensures IsSubsequence(Titles(alerts), RuleTitles)
  {
    var a1 := if VolumeRule(t) then [VolumeAlert(t)] else [];
    var a2 := if SellingRule(t) then [SellingAlert(t)] else [];
    var a3 := if RoleRule(t) then [RoleAlert(t)] else [];
    assert IsSubsequence(Titles(a1 + a2 + a3), RuleTitles) by {
      TitlesInRuleOrder(VolumeRule(t), SellingRule(t), RoleRule(t), Titles(a1 + a2 + a3));
    }
    a1 + a2 + a3
  }

  /** Each alert is present exactly when its rule fires, and nothing else is produced. */
  lemma AlertsMatchRules(t: TransactionData)
    ensures VolumeAlert(t) in AnalyzeTransaction(t) <==> VolumeRule(t)
    ensures SellingAlert(t) in AnalyzeTransaction(t) <==> SellingRule(t)
    ensures RoleAlert(t) in AnalyzeTransaction(t) <==> RoleRule(t)
    ensures forall a :: a in AnalyzeTransaction(t) ==> a in [VolumeAlert(t), SellingAlert(t), RoleAlert(t)]
  {
    assert VolumeAlert(t).title == VolumeTitle;
    assert SellingAlert(t).title == SellingTitle;
    assert RoleAlert(t).title == RoleTitle;
    assert VolumeTitle != SellingTitle && VolumeTitle != RoleTitle && SellingTitle != RoleTitle;
  }

  /** Any selection of the three titles, kept in rule order, is a subsequence of the rule titles. */
  lemma TitlesInRuleOrder(p1: bool, p2: bool, p3: bool, ts: seq<string>)
    requires ts == (if p1 then [VolumeTitle] else []) + (if p2 then [SellingTitle] else [])
                   + (if p3 then [RoleTitle] else [])
    ensures IsSubsequence(ts, RuleTitles)
  {
    var t23 := (if p2 then [SellingTitle] else []) + (if p3 then [RoleTitle] else []);
    var t3 := if p3 then [RoleTitle] else [];
    assert IsSubsequence(t3, RuleTitles[2..]);
    assert IsSubsequence(t23, RuleTitles[1..]) by {
      if !p2 {
        assert t23 == t3;
        SubsequenceOfTail(t3, RuleTitles[1..]);
      } else {
        assert t23[1..] == t3;
      }
    }
    if !p1 {
      assert ts == t23;
      SubsequenceOfTail(t23, RuleTitles);
    } else {
      assert ts[1..] == t23;
    }
  }

  // ---------------------------------------------------------------------------
  // _calculate_risk_score
  // ---------------------------------------------------------------------------

  /** The weight of a severity level; an unknown level weighs 0.5. */
  function Weight(severity: string): (w: real)
    ensures 0.25 <= w <= 1.0
  {
    if severity == "CRITICAL" then 1.0
    else if severity == "HIGH" then 0.75
    else if severity == "MEDIUM" then 0.5
    else if severity == "LOW" then 0.25
    else 0.5
  }

  function TotalWeight(alerts: seq<Alert>): (s: real)
    ensures 0.25 * |alerts| as real <= s <= |alerts| as real
  {
    if alerts == [] then 0.0 else TotalWeight(alerts[..|alerts| - 1]) + Weight(alerts[|alerts| - 1].severity)
  }

  /** `_calculate_risk_score`: 0 for no alerts, else the mean weight capped at 1. */
  function RiskScore(alerts: seq<Alert>): (score: real)
    ensures 0.0 <= score <= 1.0
    ensures score == 0.0 <==> alerts == []
    ensures alerts != [] ==> 0.25 <= score
  {
    if alerts == [] then 0.0
    else
      var mean := TotalWeight(alerts) / |alerts| as real;
      if mean < 1.0 then mean else 1.0
  }

  /** Every weight is at most 1, so the cap never changes the mean. */
  lemma CapNeverBinds(alerts: seq<Alert>)
    requires alerts != []
    ensures RiskScore(alerts) == TotalWeight(alerts) / |alerts| as real
  {
    MeanAtMostOne(TotalWeight(alerts), |alerts| as real);
  }

  lemma MeanAtMostOne(total: real, n: real)
    requires n > 0.0 && total <= n
    ensures total / n <= 1.0
  {
    var m := total / n;
    assert (m - 1.0) * n == total - n;
  }

  /** When all alerts share one severity, the score is that severity's weight. */
  lemma {:induction false} UniformSeverity(alerts: seq<Alert>, severity: string)
    requires alerts != []
    requires forall i :: 0 <= i < |alerts| ==> alerts[i].severity == severity
    ensures RiskScore(alerts) == Weight(severity)
  {
    UniformTotal(alerts, severity);
    CapNeverBinds(alerts);
    ScaledMean(|alerts| as real, Weight(severity));
  }

  lemma ScaledMean(n: real, w: real)
    requires n > 0.0
    ensures (n * w) / n == w
  {
  }

  lemma {:induction false} UniformTotal(alerts: seq<Alert>, severity: string)
    requires forall i :: 0 <= i < |alerts| ==> alerts[i].severity == severity
    ensures TotalWeight(alerts) == |alerts| as real * Weight(severity)
  {
    if alerts != [] {
      UniformTotal(alerts[..|alerts| - 1], severity);
    }
  }

  /** The score of an analysis is 0 exactly when no rule fires, and at least 0.5 otherwise. */
  lemma AnalysisRisk(t: TransactionData)
    ensures RiskScore(AnalyzeTransaction(t)) == 0.0 <==> !VolumeRule(t) && !SellingRule(t) && !RoleRule(t)
    ensures VolumeRule(t) || SellingRule(t) || RoleRule(t) ==> RiskScore(AnalyzeTransaction(t)) >= 0.5
  {
    var alerts := AnalyzeTransaction(t);
    assert alerts != [] <==> VolumeRule(t) || SellingRule(t) || RoleRule(t) by {
      if VolumeRule(t) { assert VolumeAlert(t) in alerts; }
      if SellingRule(t) { assert SellingAlert(t) in alerts; }
      if RoleRule(t) { assert RoleAlert(t) in alerts; }
    }
    if alerts != [] {
      AlertSeverities(t);
      HalfOrMore(alerts);
    }
  }

  /** Alerts of severity HIGH or MEDIUM score at least one half. */
  lemma HalfOrMore(alerts: seq<Alert>)
    requires alerts != []
    requires forall i :: 0 <= i < |alerts| ==> alerts[i].severity in {"HIGH", "MEDIUM"}
    ensures RiskScore(alerts) >= 0.5
  {
    HalfOrMoreTotal(alerts);
    var n := |alerts| as real;
    AtLeastMean(TotalWeight(alerts), n, 0.5);
  }

  /** A total of at least `c` per item has a mean of at least `c`. */
  lemma AtLeastMean(total: real, n: real, c: real)
    requires n > 0.0 && total >= c * n
    ensures total / n >= c
  {
    var q := total / n;
    assert (q - c) * n == total - c * n;
  }

  lemma {:induction false} HalfOrMoreTotal(alerts: seq<Alert>)
    requires forall i :: 0 <= i < |alerts| ==> alerts[i].severity in {"HIGH", "MEDIUM"}
    ensures TotalWeight(alerts) >= 0.5 * |alerts| as real
  {
    if alerts != [] {
      var prefix := alerts[..|alerts| - 1];
      HalfOrMoreTotal(prefix);
      assert TotalWeight(alerts) == TotalWeight(prefix) + Weight(alerts[|alerts| - 1].severity);
      assert Weight(alerts[|alerts| - 1].severity) >= 0.5;
      assert |alerts| as real == |prefix| as real + 1.0;
    }
  }

  /** The analyser's output always makes a valid response. */
  lemma AnalysisYieldsValidResponse(t: TransactionData, id: string, time: real, now: string)
    ensures var alerts := AnalyzeTransaction(t);
            BuildResponse(id, Provided(alerts), RiskScore(alerts), Provided(Citations(alerts)),
                          time, Omitted, now).Ok?
    ensures forall i :: 0 <= i < |AnalyzeTransaction(t)| ==> ValidAlert(AnalyzeTransaction(t)[i])
  {
    AlertSeverities(t);
    var alerts := AnalyzeTransaction(t);
    var score := RiskScore(alerts);
    assert 0.0 <= score <= 1.0;
  }

  /** Every alert the analyser raises is of severity HIGH or MEDIUM. */
  lemma AlertSeverities(t: TransactionData)
    ensures forall i :: 0 <= i < |AnalyzeTransaction(t)| ==> AnalyzeTransaction(t)[i].severity in {"HIGH", "MEDIUM"}
  {
    var a1 := if VolumeRule(t) then [VolumeAlert(t)] else [];
    var a2 := if SellingRule(t) then [SellingAlert(t)] else [];
    var a3 := if RoleRule(t) then [RoleAlert(t)] else [];
    var alerts := a1 + a2 + a3;
    assert AnalyzeTransaction(t) == alerts;
    forall i | 0 <= i < |alerts| ensures alerts[i].severity in {"HIGH", "MEDIUM"} {
      assert alerts[i] in a1 || alerts[i] in a2 || alerts[i] in a3;
    }
  }

  // ---------------------------------------------------------------------------
  // _get_citations
  // ---------------------------------------------------------------------------

  const Article: string := "Article 1"
  const CitationText: string := "[Citation text would come from RAG pipeline]"

  /** The regulation named by a rule text: what precedes its first "-", stripped. */
  function RuleSource(rule: string): (source: string)
    ensures Stripped(source) && '-' !in source
  {
    var head := Split(rule, '-')[0];
    Strip(head)
  }

  /** The citation an alert contributes, if its `rule_violated` is a non-empty string. */
  function CitationOf(a: Alert): Option<Citation> {
    if a.ruleViolated.Some? && a.ruleViolated.value != [] then
      Some(Citation(RuleSource(a.ruleViolated.value), Article, CitationText))
    else None
  }

  /** The citations of the first loop, one per alert with a rule, in alert order. */
  function AllCitations(alerts: seq<Alert>): (cs: seq<Citation>)
    ensures |cs| <= |alerts|
  {
    if alerts == [] then []
    else
      var earlier := AllCitations(alerts[..|alerts| - 1]);
      var c := CitationOf(alerts[|alerts| - 1]);
      if c.Some? then earlier + [c.value] else earlier
  }

  /**
    Every collected citation comes from an alert with a non-empty rule, names
    the stripped text before the rule's first "-" and cites "Article 1"; alerts
    without a rule contribute nothing.
  */
  lemma {:induction false} AllCitationsFromRules(alerts: seq<Alert>)
    ensures forall c :: c in AllCitations(alerts) ==>
              && c.article == Article
              && exists i :: 0 <= i < |alerts| && alerts[i].ruleViolated.Some? && alerts[i].ruleViolated.value != []
                             && c.source == RuleSource(alerts[i].ruleViolated.value)
    ensures (forall i :: 0 <= i < |alerts| ==> alerts[i].ruleViolated.None? || alerts[i].ruleViolated.value == []) ==>
              AllCitations(alerts) == []
  {
    if alerts != [] {
      var prefix := alerts[..|alerts| - 1];
      AllCitationsFromRules(prefix);
      forall c | c in AllCitations(alerts)
        ensures exists i :: 0 <= i < |alerts| && alerts[i].ruleViolated.Some? && alerts[i].ruleViolated.value != []
                            && c.source == RuleSource(alerts[i].ruleViolated.value)
      {
        if c !in AllCitations(prefix) {
          var i := |alerts| - 1;
          assert alerts[i].ruleViolated.Some? && alerts[i].ruleViolated.value != [];
        } else {
          var i :| 0 <= i < |prefix| && prefix[i].ruleViolated.Some? && prefix[i].ruleViolated.value != []
                   && c.source == RuleSource(prefix[i].ruleViolated.value);
          assert alerts[i] == prefix[i];
        }
      }
      if forall i :: 0 <= i < |alerts| ==> alerts[i].ruleViolated.None? || alerts[i].ruleViolated.value == [] {
        assert forall i :: 0 <= i < |prefix| ==> prefix[i] == alerts[i];
      }
    }
  }

  /** The alert has a non-empty `rule_violated`, so the first loop cites it. */
  predicate Cited(a: Alert) {
    CitationOf(a).Some?
  }

  /**
    The first loop keeps, in alert order, exactly one citation per alert with
    a non-empty rule: the k-th citation is that of the k-th such alert.
  */
  lemma {:induction false} AllCitationsExact(alerts: seq<Alert>)
    ensures var cited := Filter(Cited, alerts);
            && |AllCitations(alerts)| == |cited|
            && forall k :: 0 <= k < |cited| ==> AllCitations(alerts)[k] == CitationOf(cited[k]).value
  {
    if alerts != [] {
      var prefix := alerts[..|alerts| - 1];
      var last := alerts[|alerts| - 1];
      AllCitationsExact(prefix);
      assert prefix + [last] == alerts;
      FilterSnoc(Cited, prefix, last);
    }
  }

  /** Every alert with a non-empty rule has its citation collected, and its key survives de-duplication. */
  lemma EveryRuleCited(alerts: seq<Alert>)
    ensures forall i :: 0 <= i < |alerts| && CitationOf(alerts[i]).Some? ==>
              && CitationOf(alerts[i]).value in AllCitations(alerts)
              && Key(CitationOf(alerts[i]).value) in Keys(Citations(alerts))
  {
    AllCitationsExact(alerts);
    var cited := Filter(Cited, alerts);
    var all := AllCitations(alerts);
    forall i | 0 <= i < |alerts| && CitationOf(alerts[i]).Some?
      ensures CitationOf(alerts[i]).value in all && Key(CitationOf(alerts[i]).value) in Keys(Citations(alerts))
    {
      assert Cited(alerts[i]);
      assert alerts[i] in cited;
      var k :| 0 <= k < |cited| && cited[k] == alerts[i];
      assert all[k] == CitationOf(alerts[i]).value;
      assert Key(all[k]) in Keys(all);
    }
  }

  function Key(c: Citation): (string, string) {
    (c.source, c.article)
  }

  function Keys(cs: seq<Citation>): set<(string, string)> {
    set i | 0 <= i < |cs| :: Key(cs[i])
  }

  /** Appending a citation adds its key. */
  lemma KeysSnoc(cs: seq<Citation>, c: Citation)
    ensures Keys(cs + [c]) == Keys(cs) + {Key(c)}
  {
    var s := cs + [c];
    forall k | k in Keys(s)
      ensures k in Keys(cs) + {Key(c)}
    {
      var i :| 0 <= i < |s| && Key(s[i]) == k;
      if i < |cs| {
        assert s[i] == cs[i];
      }
    }
    forall k | k in Keys(cs)
      ensures k in Keys(s)
    {
      var i :| 0 <= i < |cs| && Key(cs[i]) == k;
      assert s[i] == cs[i];
    }
    assert Key(s[|cs|]) in Keys(s);
  }

  /** The citations of `cs` whose key did not occur earlier, in order. */
  function FirstByKey(cs: seq<Citation>): (u: seq<Citation>)
    ensures Keys(u) == Keys(cs)
    ensures |u| <= |cs|
  {
    if cs == [] then []
    else
      var earlier := FirstByKey(cs[..|cs| - 1]);
      var c := cs[|cs| - 1];
      assert Keys(cs) == Keys(cs[..|cs| - 1]) + {Key(c)} by {
        assert cs[..|cs| - 1] + [c] == cs;
        KeysSnoc(cs[..|cs| - 1], c);
      }
      if Key(c) in Keys(earlier) then earlier
      else
        KeysSnoc(earlier, c);
        earlier + [c]
  }

  /** `_get_citations` as a value. */
  function Citations(alerts: seq<Alert>): seq<Citation> {
    FirstByKey(AllCitations(alerts))
  }

  predicate UniqueKeys(u: seq<Citation>) {
    forall i, j :: 0 <= i < j < |u| ==> Key(u[i]) != Key(u[j])
  }

  /** No two kept citations share a key. */
  lemma {:induction false} FirstByKeyUnique(cs: seq<Citation>)
    ensures UniqueKeys(FirstByKey(cs))
  {
    if cs != [] {
      var earlier := FirstByKey(cs[..|cs| - 1]);
      FirstByKeyUnique(cs[..|cs| - 1]);
      var c := cs[|cs| - 1];
      if Key(c) !in Keys(earlier) {
        var u := earlier + [c];
        assert FirstByKey(cs) == u;
        forall i, j | 0 <= i < j < |u|
          ensures Key(u[i]) != Key(u[j])
        {
          assert u[i] == earlier[i];
          if j == |u| - 1 {
            assert u[j] == c;
            assert Key(u[i]) in Keys(earlier);
          } else {
            assert u[j] == earlier[j];
          }
        }
      }
    }
  }

  /** The kept citations appear in the input in the same order. */
  lemma {:induction false} FirstByKeyOrdered(cs: seq<Citation>)
    ensures IsSubsequence(FirstByKey(cs), cs)
  {
    if cs != [] {
      FirstByKeyOrdered(cs[..|cs| - 1]);
      var earlier := FirstByKey(cs[..|cs| - 1]);
      var c := cs[|cs| - 1];
      if Key(c) in Keys(earlier) {
        SubsequenceSnoc(earlier, cs[..|cs| - 1], c, false);
      } else {
        SubsequenceSnoc(earlier, cs[..|cs| - 1], c, true);
      }
      assert cs[..|cs| - 1] + [c] == cs;
    }
  }

  /** Extending the list by one element keeps a subsequence one, with or without that element. */
  lemma {:induction false} SubsequenceSnoc<T>(a: seq<T>, b: seq<T>, x: T, take: bool)
    requires IsSubsequence(a, b)
    ensures IsSubsequence(if take then a + [x] else a, b + [x])
    decreases |b|
  {
    if b == [] {
      assert a == [];
      if take {
        assert ([x] + [])[1..] == [];
      }
    } else if a == [] {
      if take {
        SubsequenceSnoc(a, b[1..], x, take);
        assert (b + [x])[1..] == b[1..] + [x];
        SubsequenceOfTail(a + [x], b + [x]);
      }
    } else {
      var a' := if take then a + [x] else a;
      assert (b + [x])[1..] == b[1..] + [x];
      if a[0] == b[0] {
        SubsequenceSnoc(a[1..], b[1..], x, take);
        assert a'[1..] == (if take then a[1..] + [x] else a[1..]);
      } else {
        SubsequenceSnoc(a, b[1..], x, take);
      }
    }
  }

  /** Each citation whose key has not occurred before it is kept. */
  lemma {:induction false} FirstOccurrenceKept(cs: seq<Citation>, j: nat)
    requires j < |cs|
    requires forall k :: 0 <= k < j ==> Key(cs[k]) != Key(cs[j])
    ensures cs[j] in FirstByKey(cs)
  {
    var prefix := cs[..|cs| - 1];
    var earlier := FirstByKey(prefix);
    if j < |cs| - 1 {
      FirstOccurrenceKept(prefix, j);
    } else {
      forall k | 0 <= k < |prefix| ensures Key(prefix[k]) != Key(cs[j]) {
        assert prefix[k] == cs[k];
      }
      assert Key(cs[j]) !in Keys(prefix);
    }
  }

  /**
    `_get_citations`: collect a citation for every alert with a rule, then
    keep the first citation for each (source, article) key.
  */
  method GetCitations(alerts: seq<Alert>) returns (unique: seq<Citation>)
    ensures unique == Citations(alerts)
    ensures |unique| <= |alerts|
  {
    var citations: seq<Citation> := [];
    for i := 0 to |alerts|
      invariant citations == AllCitations(alerts[..i])
    {
      assert alerts[..i + 1][..i] == alerts[..i];
      var a := alerts[i];
      if a.ruleViolated.Some? && a.ruleViolated.value != [] {
        citations := citations + [Citation(RuleSource(a.ruleViolated.value), Article, CitationText)];
      }
    }
    assert alerts[..|alerts|] == alerts;
    var seen: set<(string, string)> := {};
    unique := [];
    for i := 0 to |citations|
      invariant unique == FirstByKey(citations[..i])
      invariant seen == Keys(unique)
    {
      assert citations[..i + 1][..i] == citations[..i];
      var c := citations[i];
      var key := (c.source, c.article);
      if key !in seen {
        seen := seen + {key};
        KeysSnoc(unique, c);
        unique := unique + [c];
      }
    }
    assert citations[..|citations|] == citations;
  }
}

=== FILE: Auth.dfy ===
/**
  The API-key check: the configured key set and the three-way decision made
  for the `X-API-Key` header.
*/
module Auth {
  import opened Wrappers
  import opened PyStr

  const DefaultApiKeys: string := "dev-key-12345"

  /** `set(os.getenv("API_KEYS", "dev-key-12345").split(","))`; entries are not trimmed. */
  function ValidApiKeys(env: Option<string>): (keys: set<string>)
    ensures forall k :: k in keys ==> ',' !in k
    ensures env.Some? ==> env.value in keys || ',' in env.value
  {
    var raw := if env.Some? then env.value else DefaultApiKeys;
    var parts := Split(raw, ',');
    assert ',' !in raw ==> parts[0] == raw by {
      if ',' !in raw {
        SplitNone(raw, ',');
      }
    }
    set i | 0 <= i < |parts| :: parts[i]
  }

  /** A value without commas configures exactly one key. */
  lemma SingleKey(raw: string)
    requires ',' !in raw
    ensures ValidApiKeys(Some(raw)) == {raw}
  {
    SplitNone(raw, ',');
    var parts := Split(raw, ',');
    assert parts == [raw];
  }

  /** With the variable unset, the development key is the only key. */
  lemma DefaultKeySet()
    ensures ValidApiKeys(None) == {DefaultApiKeys}
  {
    assert ',' !in DefaultApiKeys;
    SingleKey(DefaultApiKeys);
    assert ValidApiKeys(None) == ValidApiKeys(Some(DefaultApiKeys));
  }

  /** A configured key list is recovered entry for entry, spaces included. */
  lemma {:induction false} KeysFromList(entries: seq<string>)
    requires |entries| >= 1
    requires forall i :: 0 <= i < |entries| ==> ',' !in entries[i]
    ensures ValidApiKeys(Some(Join(entries, ","))) == set i | 0 <= i < |entries| :: entries[i]
  {
    SplitJoin(entries, ',');
  }

  datatype Rejection = Rejection(statusCode: int, error: string, message: string, code: string)

  const MissingKey: Rejection :=
    Rejection(401, "Missing API key", "Please provide API key in X-API-Key header", "MISSING_API_KEY")
  const InvalidKey: Rejection :=
    Rejection(403, "Invalid API key", "The provided API key is not valid", "INVALID_API_KEY")

  /** `verify_api_key`: an absent or empty header is 401, an unknown key 403, otherwise the key itself. */
  function VerifyApiKey(validKeys: set<string>, header: Option<string>): (r: Result<string, Rejection>)
    ensures (header.None? || header.value == "") <==> r == Err(MissingKey)
    ensures r == Err(InvalidKey) <==> header.Some? && header.value != "" && header.value !in validKeys
    ensures r.Ok? ==> header == Some(r.value) && r.value in validKeys && r.value != ""
    ensures r.Ok? || r == Err(MissingKey) || r == Err(InvalidKey)
  {
    if header.None? || header.value == "" then Err(MissingKey)
    else if header.value !in validKeys then Err(InvalidKey)
    else Ok(header.value)
  }

  /** A missing key is refused as missing whatever the configured keys are. */
  lemma MissingBeforeMembership(keys1: set<string>, keys2: set<string>)
    ensures VerifyApiKey(keys1, None) == VerifyApiKey(keys2, Some("")) == Err(MissingKey)
  {
  }

  /** Even when the empty string is configured as a key (API_KEYS="a,,b"), an empty header is refused. */
  lemma EmptyConfiguredKeyStillMissing()
    ensures "" in ValidApiKeys(Some("a,,b"))
    ensures VerifyApiKey(ValidApiKeys(Some("a,,b")), Some("")) == Err(MissingKey)
  {
    KeysFromList(["a", "", "b"]);
    assert Join(["a", "", "b"], ",") == "a,,b";
    var parts := ["a", "", "b"];
    assert parts[1] == "";
  }
}

=== FILE: Extensions.dfy ===
/**
  The list logic of the VS Code extension check: removing `//` comments from
  the recommendations file line by line, and sorting the recommended
  extensions into installed and missing ones.
*/
module Extensions {
  import opened PyStr
  import opened Seqs

  // ---------------------------------------------------------------------------
  // Comment stripping in get_recommended_extensions
  // ---------------------------------------------------------------------------

  /** One line with its `//` comment removed: the part before the first "//". */
  function CommentFree(line: string): (r: string)
    ensures |r| <= |line| && r == line[..|r|]
    ensures !Contains(r, "//")
    ensures !Contains(line, "//") ==> r == line
  {
    if Contains(line, "//") then BeforeFirst(line, "//") else line
  }

  /**
    Split the file into lines, strip each line's comment and join the lines
    back with newlines.
  */
  method StripComments(content: string) returns (cleaned: string)
    ensures |Split(cleaned, '\n')| == |Split(content, '\n')|
    ensures forall i :: 0 <= i < |Split(content, '\n')| ==>
              Split(cleaned, '\n')[i] == CommentFree(Split(content, '\n')[i])
  {
    var lines := Split(content, '\n');
    var cleanedLines: seq<string> := [];
    for i := 0 to |lines|
      invariant |cleanedLines| == i
      invariant forall k :: 0 <= k < i ==> cleanedLines[k] == CommentFree(lines[k])
      invariant forall k :: 0 <= k < i ==> '\n' !in cleanedLines[k]
    {
      var line := lines[i];
      if Contains(line, "//") {
        line := BeforeFirst(line, "//");
      }
      assert line == CommentFree(lines[i]);
      assert '\n' !in line by {
        assert '\n' !in lines[i];
        forall c | c in line ensures c in lines[i] {
          var k :| 0 <= k < |line| && line[k] == c;
          assert lines[i][k] == c;
        }
      }
      cleanedLines := cleanedLines + [line];
    }
    cleaned := Join(cleanedLines, "\n");
    SplitJoin(cleanedLines, '\n');
  }

  // ---------------------------------------------------------------------------
  // categorize_extensions
  // ---------------------------------------------------------------------------

  /** `{ext.lower() for ext in installed}`. */
  function LowerSet(installed: set<string>): set<string> {
    set e | e in installed :: Lower(e)
  }

  /** `ext` counts as installed when some installed id equals it ignoring letter case. */
  predicate IsInstalled(installed: set<string>, ext: string) {
    Lower(ext) in LowerSet(installed)
  }

  /** The membership test and its negation, as function values for `Filter`. */
  function Installed(installed: set<string>): string -> bool {
    e => IsInstalled(installed, e)
  }

  function Missing(installed: set<string>): string -> bool {
    e => !IsInstalled(installed, e)
  }

  /** `categorize_extensions`: recommended ids split into installed and missing, each in input order. */
  method CategorizeExtensions(recommended: seq<string>, installed: set<string>)
    returns (installedList: seq<string>, missing: seq<string>)
    ensures installedList == Filter(Installed(installed), recommended)
    ensures missing == Filter(Missing(installed), recommended)
    ensures |installedList| + |missing| == |recommended|
  {
    var installedLower := LowerSet(installed);
    installedList, missing := [], [];
    for i := 0 to |recommended|
      invariant installedList == Filter(Installed(installed), recommended[..i])
      invariant missing == Filter(Missing(installed), recommended[..i])
    {
      var ext := recommended[i];
      FilterStep(Installed(installed), recommended, i);
      FilterStep(Missing(installed), recommended, i);
      assert (Lower(ext) in installedLower) == Installed(installed)(ext) == !Missing(installed)(ext);
      if Lower(ext) in installedLower {
        installedList := installedList + [ext];
      } else {
        missing := missing + [ext];
      }
    }
    assert recommended[..|recommended|] == recommended;
    FilterComplement(Installed(installed), Missing(installed), recommended);
  }

  /** Both lists keep the order of the recommendations, and membership ignores letter case. */
  lemma CategoriesOrderedAndCaseInsensitive(recommended: seq<string>, installed: set<string>)
    ensures IsSubsequence(Filter(Installed(installed), recommended), recommended)
    ensures IsSubsequence(Filter(Missing(installed), recommended), recommended)
    ensures forall e :: e in Filter(Installed(installed), recommended) <==>
              e in recommended && exists x :: x in installed && Lower(x) == Lower(e)
  {
    FilterIsSubsequence(Installed(installed), recommended);
    FilterIsSubsequence(Missing(installed), recommended);
  }
}

=== FILE: Format.dfy ===
/**
  Python's decimal rendering of integers: `str(n)` and the thousands-grouped
  `f"{n:,}"` used in alert descriptions.
*/
module Format {
  import opened PyStr

  predicate IsDigit(c: char) {
    '0' <= c <= '9'
  }

  function DigitChar(d: nat): (c: char)
    requires d < 10
    ensures IsDigit(c)
  {
    ('0' as int + d) as char
  }

  function DigitValue(c: char): int {
    c as int - '0' as int
  }

  /** `str(n)` for a non-negative `n`: digits, most significant first, no leading zero. */
  function Decimal(n: nat): (s: string)
    ensures s != []
    ensures forall i :: 0 <= i < |s| ==> IsDigit(s[i])
    ensures n > 0 ==> s[0] != '0'
  {
    if n < 10 then [DigitChar(n)] else Decimal(n / 10) + [DigitChar(n % 10)]
  }

  /** `int(s)` for a string of digits. */
  function ParseDecimal(s: string): int
    requires forall i :: 0 <= i < |s| ==> IsDigit(s[i])
  {
    if s == [] then 0 else ParseDecimal(s[..|s| - 1]) * 10 + DigitValue(s[|s| - 1])
  }

  /** Reading back a rendered number gives the number. */
  lemma {:induction false} DecimalRoundTrip(n: nat)
    ensures ParseDecimal(Decimal(n)) == n
  {
    if n >= 10 {
      DecimalRoundTrip(n / 10);
      var s := Decimal(n);
      assert s[..|s| - 1] == Decimal(n / 10);
    }
  }

  /** Three digits with leading zeros, for a group below the leading one. */
  function Pad3(k: nat): (s: string)
    requires k < 1000
    ensures |s| == 3 && ',' !in s
  {
    [DigitChar(k / 100), DigitChar(k / 10 % 10), DigitChar(k % 10)]
  }

  /** `f"{n:,}"` for a non-negative `n`. */
  function Grouped(n: nat): string {
    if n < 1000 then Decimal(n) else Grouped(n / 1000) + "," + Pad3(n % 1000)
  }

  /** `f"{n:,}"`: a minus sign for negatives, then the grouped magnitude. */
  function FormatThousands(n: int): (s: string)
    ensures RemoveChar(s, ',') == (if n < 0 then "-" else "") + Decimal(if n < 0 then -n else n)
  {
    if n < 0 then
      GroupedDigits(-n);
      RemoveCharAppend("-", Grouped(-n), ',');
      "-" + Grouped(-n)
    else
      GroupedDigits(n);
      Grouped(n)
  }

  /** Removing the group separators leaves exactly `str(n)`. */
  lemma {:induction false} GroupedDigits(n: nat)
    ensures RemoveChar(Grouped(n), ',') == Decimal(n)
  {
    if n >= 1000 {
      GroupedDigits(n / 1000);
      RemoveCharAppend(Grouped(n / 1000) + ",", Pad3(n % 1000), ',');
      RemoveCharAppend(Grouped(n / 1000), ",", ',');
      assert RemoveChar(",", ',') == [];
      DecimalSplit(n);
    }
  }

  /** The last three digits of `str(n)` are `n % 1000`, padded. */
  lemma DecimalSplit(n: nat)
    requires n >= 1000
    ensures Decimal(n) == Decimal(n / 1000) + Pad3(n % 1000)
  {
    var q, r := n / 1000, n % 1000;
    var a, b, c := r / 100, r / 10 % 10, r % 10;
    assert r == 100 * a + 10 * b + c;
    assert n / 10 == 100 * q + 10 * a + b && n % 10 == c;
    assert n / 10 / 10 == 10 * q + a && n / 10 % 10 == b;
    assert n / 100 == 10 * q + a;
    assert n / 100 / 10 == q && n / 100 % 10 == a;
    assert Decimal(n) == Decimal(n / 10) + [DigitChar(c)];
    assert Decimal(n / 10) == Decimal(n / 100) + [DigitChar(b)];
    assert Decimal(n / 100) == Decimal(q) + [DigitChar(a)];
  }
}

=== FILE: Frames.dfy ===
/**
  A minimal table model standing in for a pandas DataFrame: an ordered list
  of column names and a list of rows, each row mapping column names to cells.
*/
module Frames {
  import opened Seqs

  /** One cell; `Null` stands for None/NaN. */
  datatype Cell = Null | Str(s: string) | Int(i: int) | Bool(b: bool) | Num(x: real)

  type Row = map<string, Cell>

  datatype Frame = Frame(columns: seq<string>, rows: seq<Row>)

  /** Every row has exactly the frame's columns. */
  predicate WellFormed(df: Frame) {
    forall i :: 0 <= i < |df.rows| ==> df.rows[i].Keys == set c | c in df.columns
  }

  /** `[col for col in required if col not in present]`. */
  function MissingColumns(required: seq<string>, present: seq<string>): (m: seq<string>)
    ensures forall c :: c in m <==> c in required && c !in present
    ensures IsSubsequence(m, required)
  {
    FilterIsSubsequence(c => c !in present, required);
    Filter(c => c !in present, required)
  }
}

=== FILE: Loaders.dfy ===
/**
  The checks and the index arithmetic of `TransactionDataLoader`: the
  path-traversal gate of `load_specific_file`, the required-column check,
  the temporal train/val/test split and the feature-matrix column check.
  The file system (path resolution, existence, CSV reading) is a parameter.
*/
module Loaders {
  import opened Wrappers
  import opened PyStr
  import opened Seqs
  import opened Frames

  datatype LoadError =
    | DataDirNotFound
    | PathTraversal
    | InvalidFilePath
    | FileNotFound(filename: string)
    | MissingRequired(missing: seq<string>)
    | RatiosDoNotSumToOne
    | MissingFeatures(missing: seq<string>)
    | KeyError(column: string)

  // ---------------------------------------------------------------------------
  // load_specific_file
  // ---------------------------------------------------------------------------

  /** The syntactic path-traversal test on a file name. */
  predicate IsTraversal(filename: string)
    ensures IsTraversal(filename) <==>
              || (exists i :: 0 <= i < |filename| - 1 && filename[i] == '.' && filename[i + 1] == '.')
              || (filename != [] && (filename[0] == '/' || filename[0] == '\\'))
  {
    TraversalChars(filename);
    Contains(filename, "..") || StartsWith(filename, "/") || StartsWith(filename, "\\")
  }

  lemma TraversalChars(s: string)
    ensures Contains(s, "..") <==> exists i :: 0 <= i < |s| - 1 && s[i] == '.' && s[i + 1] == '.'
    ensures StartsWith(s, "/") <==> s != [] && s[0] == '/'
    ensures StartsWith(s, "\\") <==> s != [] && s[0] == '\\'
  {
    ContainsAt(s, "..");
    if Contains(s, "..") {
      var i :| OccursAt(s, "..", i);
      assert s[i] == s[i..i + 2][0] && s[i + 1] == s[i..i + 2][1];
    }
    if exists i :: 0 <= i < |s| - 1 && s[i] == '.' && s[i + 1] == '.' {
      var i :| 0 <= i < |s| - 1 && s[i] == '.' && s[i + 1] == '.';
      assert s[i..i + 2] == "..";
      assert OccursAt(s, "..", i);
    }
    if s != [] {
      assert s[..1] == [s[0]];
    }
  }

  /**
    What the loader asks of the file system. `resolve` is `Path.resolve`,
    giving the canonical path as a list of components, or `None` when it
    raises an OSError; `isFile` is `Path.exists`; `readCsv` is `pd.read_csv`.
  */
  datatype FileSystem = FileSystem(
    resolve: string -> Option<seq<string>>,
    isFile: string -> bool,
    readCsv: string -> Frame)

  /** `data_dir / filename`. */
  function JoinPath(dir: string, name: string): string {
    if name == [] then dir else dir + "/" + name
  }

  /** `Path.is_relative_to` on canonical component lists. */
  predicate IsRelativeTo(path: seq<string>, base: seq<string>) {
    |base| <= |path| && path[..|base|] == base
  }

  /** The 11 columns every transaction file must have. */
  const RequiredColumns: seq<string> :=
    ["transaction_id", "company", "insider_name", "insider_role",
     "action", "volume", "price", "total_value", "days_to_earnings",
     "is_suspicious", "violation_type"]

  /** `_validate_schema`: the frame passes through when no required column is missing. */
  function ValidateSchema(df: Frame): (r: Result<Frame, LoadError>)
    ensures r.Ok? <==> forall i :: 0 <= i < |RequiredColumns| ==> RequiredColumns[i] in df.columns
    ensures r.Ok? ==> r.value == df
    ensures r.Err? ==> r.error.MissingRequired?
                       && r.error.missing != []
                       && IsSubsequence(r.error.missing, RequiredColumns)
                       && forall c :: c in r.error.missing <==> c in RequiredColumns && c !in df.columns
  {
    var missing := MissingColumns(RequiredColumns, df.columns);
    if missing != [] then Err(MissingRequired(missing)) else Ok(df)
  }

  /** The name passes the syntactic test and resolves to a path inside the data directory. */
  predicate InsideDataDir(dataDir: string, filename: string, fs: FileSystem) {
    && !IsTraversal(filename)
    && fs.resolve(JoinPath(dataDir, filename)).Some?
    && fs.resolve(dataDir).Some?
    && IsRelativeTo(fs.resolve(JoinPath(dataDir, filename)).value, fs.resolve(dataDir).value)
  }

  /** `load_specific_file(filename)` on a loader whose directory is `dataDir`. */
  function LoadSpecificFile(dataDir: string, filename: string, fs: FileSystem): (r: Result<Frame, LoadError>)
    ensures r == Err(PathTraversal) <==> IsTraversal(filename)
    ensures r == Err(FileNotFound(filename)) <==>
              InsideDataDir(dataDir, filename, fs) && !fs.isFile(JoinPath(dataDir, filename))
    ensures InsideDataDir(dataDir, filename, fs) && fs.isFile(JoinPath(dataDir, filename)) ==>
              r == ValidateSchema(fs.readCsv(JoinPath(dataDir, filename)))
    ensures r.Ok? <==>
              && InsideDataDir(dataDir, filename, fs)
              && fs.isFile(JoinPath(dataDir, filename))
              && forall c :: c in RequiredColumns ==> c in fs.readCsv(JoinPath(dataDir, filename)).columns
    ensures r == Err(InvalidFilePath) <==>
              && !IsTraversal(filename)
              && (|| fs.resolve(JoinPath(dataDir, filename)).None?
                  || fs.resolve(dataDir).None?
                  || !IsRelativeTo(fs.resolve(JoinPath(dataDir, filename)).value, fs.resolve(dataDir).value))
    ensures r.Ok? ==>
              && !IsTraversal(filename)
              && fs.resolve(JoinPath(dataDir, filename)).Some?
              && fs.resolve(dataDir).Some?
              && IsRelativeTo(fs.resolve(JoinPath(dataDir, filename)).value, fs.resolve(dataDir).value)
              && fs.isFile(JoinPath(dataDir, filename))
              && r.value == fs.readCsv(JoinPath(dataDir, filename))
              && forall c :: c in RequiredColumns ==> c in r.value.columns
  {
    if IsTraversal(filename) then Err(PathTraversal)
    else
      var filepath := JoinPath(dataDir, filename);
      var resolved := fs.resolve(filepath);
      var base := fs.resolve(dataDir);
      if resolved.None? || base.None? || !IsRelativeTo(resolved.value, base.value) then Err(InvalidFilePath)
      else if !fs.isFile(filepath) then Err(FileNotFound(filename))
      else ValidateSchema(fs.readCsv(filepath))
  }

  /** A traversal name is refused before the file system is consulted at all. */
  lemma TraversalRefusedBeforeAccess(dataDir: string, filename: string, fs1: FileSystem, fs2: FileSystem)
    requires IsTraversal(filename)
    ensures LoadSpecificFile(dataDir, filename, fs1) == LoadSpecificFile(dataDir, filename, fs2) == Err(PathTraversal)
  {
  }

  /** A name that passes the syntactic test only reaches the disk when it resolves inside the data directory. */
  lemma ResolvedOutsideRefused(dataDir: string, filename: string, fs: FileSystem, outside: seq<string>)
    requires !IsTraversal(filename)
    requires fs.resolve(dataDir).Some? && fs.resolve(JoinPath(dataDir, filename)) == Some(outside)
    requires !IsRelativeTo(outside, fs.resolve(dataDir).value)
    ensures LoadSpecificFile(dataDir, filename, fs) == Err(InvalidFilePath)
  {
  }

  /** The names used as attacks are caught by the syntactic test. */
  lemma AttackNamesAreTraversal()
    ensures IsTraversal("../../../etc/passwd")
    ensures IsTraversal("/etc/passwd")
    ensures IsTraversal("\\windows\\system32")
    ensures IsTraversal("data/../../../etc/passwd")
  {
    var s := "data/../../../etc/passwd";
    assert OccursAt(s, "..", 5);
    ContainsAt(s, "..");
  }

  /** An ordinary CSV name is not mistaken for traversal. */
  lemma OrdinaryNameNotTraversal(name: string)
    requires name == "test_data.csv"
    ensures !IsTraversal(name)
  {
    forall i | 0 <= i <= |name| - 2
      ensures !OccursAt(name, "..", i)
    {
      assert name[i..i + 2][0] == name[i] && name[i..i + 2][1] == name[i + 1];
    }
    ContainsAt(name, "..");
  }

  // ---------------------------------------------------------------------------
  // get_train_val_test_split
  // ---------------------------------------------------------------------------

  datatype Splits<T> = Splits(train: seq<T>, val: seq<T>, test: seq<T>)

  /** Python's `int(x)` on a number: truncation toward zero. */
  function Trunc(x: real): (k: int)
    ensures x >= 0.0 ==> 0 <= k && k as real <= x < k as real + 1.0
    ensures x < 0.0 ==> k <= 0 && k as real - 1.0 < x <= k as real
  {
    if x >= 0.0 then x.Floor else -((-x).Floor)
  }

  function Abs(x: real): real {
    if x < 0.0 then -x else x
  }

  /** The split is refused unless the three ratios sum to 1 within 0.01. */
  predicate RatiosSumToOne(train: real, val: real, test: real) {
    Abs(train + val + test - 1.0) < 0.01
  }

  /** The two cut points: `train_end = int(n * train)`, `val_end = train_end + int(n * val)`. */
  function Cuts(n: nat, train: real, val: real): (int, int) {
    var trainEnd := Trunc(n as real * train);
    (trainEnd, trainEnd + Trunc(n as real * val))
  }

  /** With non-negative ratios the cuts are ordered floors; they fit in `n` when the first two ratios do. */
  lemma CutsFloors(n: nat, train: real, val: real)
    requires train >= 0.0 && val >= 0.0
    ensures Cuts(n, train, val).0 == (n as real * train).Floor >= 0
    ensures Cuts(n, train, val).1 - Cuts(n, train, val).0 == (n as real * val).Floor >= 0
    ensures train + val <= 1.0 ==> Cuts(n, train, val).1 <= n
  {
    NonNegProduct(n, train);
    NonNegProduct(n, val);
    if train + val <= 1.0 {
      FloorsFit(n, train, val);
    }
  }

  lemma NonNegProduct(n: nat, ratio: real)
    requires ratio >= 0.0
    ensures n as real * ratio >= 0.0
  {
  }

  /**
    `get_train_val_test_split` applied to the rows already sorted by the sort
    column: cut at `int(n * train)` and at that plus `int(n * val)`, with
    Python slicing.
  */
  function TrainValTestSplit<T>(sorted: seq<T>, train: real, val: real, test: real): (r: Result<Splits<T>, LoadError>)
    ensures r.Err? <==> !RatiosSumToOne(train, val, test)
    ensures r.Err? ==> r.error == RatiosDoNotSumToOne
    ensures r.Ok? && train >= 0.0 && val >= 0.0 ==>
              r.value.train + r.value.val + r.value.test == sorted
  {
    if !RatiosSumToOne(train, val, test) then Err(RatiosDoNotSumToOne)
    else
      var (trainEnd, valEnd) := Cuts(|sorted|, train, val);
      assert train >= 0.0 && val >= 0.0 ==> 0 <= trainEnd <= valEnd by {
        if train >= 0.0 && val >= 0.0 {
          CutsFloors(|sorted|, train, val);
        }
      }
      PartitionAt(sorted, trainEnd, valEnd);
      Ok(Splits(Take(sorted, trainEnd), Slice(sorted, trainEnd, valEnd), Drop(sorted, valEnd)))
  }

  /** With non-negative ratios whose first two fit in 1, the parts have `floor(n * ratio)` rows. */
  lemma SplitSizes<T>(sorted: seq<T>, train: real, val: real, test: real)
    requires RatiosSumToOne(train, val, test)
    requires train >= 0.0 && val >= 0.0 && train + val <= 1.0
    ensures var s := TrainValTestSplit(sorted, train, val, test).value;
            && |s.train| == (|sorted| as real * train).Floor
            && |s.val| == (|sorted| as real * val).Floor
            && |s.test| == |sorted| - |s.train| - |s.val|
  {
    var (trainEnd, valEnd) := Cuts(|sorted|, train, val);
    CutsFloors(|sorted|, train, val);
    PartitionAt(sorted, trainEnd, valEnd);
    assert |Drop(sorted, valEnd)| == |sorted| - valEnd;
  }

  /** Python slicing at two ordered non-negative cut points partitions a list. */
  lemma PartitionAt<T>(s: seq<T>, a: int, b: int)
    ensures 0 <= a <= b ==> Take(s, a) + Slice(s, a, b) + Drop(s, b) == s
    ensures 0 <= a <= b <= |s| ==> |Take(s, a)| == a && |Slice(s, a, b)| == b - a
  {
    if 0 <= a <= b {
      var i, j := SliceBound(a, |s|), SliceBound(b, |s|);
      assert Slice(s, a, b) == s[i..j];
      assert s[..i] + s[i..j] + s[j..] == s;
    }
  }

  /** Two floors of parts of `n` fit inside `n`. */
  lemma FloorsFit(n: nat, train: real, val: real)
    requires train >= 0.0 && val >= 0.0 && train + val <= 1.0
    ensures (n as real * train).Floor + (n as real * val).Floor <= n
  {
    var x, y := n as real * train, n as real * val;
    assert x + y <= n as real by {
      assert x + y == n as real * (train + val);
    }
  }

  /** With a negative validation ratio the slices overlap and rows are counted twice. */
  lemma NegativeValRatioDuplicates(rows: seq<int>)
    requires |rows| == 10
    ensures TrainValTestSplit(rows, 1.0, -0.2, 0.2).Ok?
    ensures var s := TrainValTestSplit(rows, 1.0, -0.2, 0.2).value;
            |s.train| + |s.val| + |s.test| == 12
  {
    assert Trunc(10.0 * 1.0) == 10;
    assert Trunc(10.0 * -0.2) == -2;
  }

  /** `get_train_test_split(df, test_size)`: a fresh loader on the default directory, then a split with no validation part. */
  function TrainTestSplit<T>(dataDirExists: bool, sorted: seq<T>, testSize: real): (r: Result<Splits<T>, LoadError>)
    ensures !dataDirExists <==> r == Err(DataDirNotFound)
    ensures dataDirExists ==> r.Ok? && r.value.val == []
    ensures dataDirExists && 0.0 <= testSize <= 1.0 ==> r.value.train + r.value.test == sorted
  {
    if !dataDirExists then Err(DataDirNotFound)
    else
      var r := TrainValTestSplit(sorted, 1.0 - testSize, 0.0, testSize);
      assert r.Ok?;
      var trainEnd := Trunc(|sorted| as real * (1.0 - testSize));
      assert Trunc(|sorted| as real * 0.0) == 0;
      assert r.value.val == Slice(sorted, trainEnd, trainEnd + 0);
      r
  }

  // ---------------------------------------------------------------------------
  // get_feature_matrix
  // ---------------------------------------------------------------------------

  const DefaultFeatures: seq<string> :=
    ["volume", "price", "total_value", "days_to_earnings",
     "volume_zscore", "day_of_week", "month",
     "is_quarter_end", "action_buy"]

  /** `df[cols]`: the same rows restricted to `cols`. */
  function Select(df: Frame, cols: seq<string>): (x: Frame)
    ensures x.columns == cols && |x.rows| == |df.rows|
    ensures forall i, c :: 0 <= i < |df.rows| && c in cols && c in df.rows[i] ==>
              c in x.rows[i] && x.rows[i][c] == df.rows[i][c]
    ensures forall i, c :: 0 <= i < |x.rows| && c in x.rows[i] ==> c in cols && c in df.rows[i]
  {
    Frame(cols, seq(|df.rows|, i requires 0 <= i < |df.rows| =>
                    map c | c in df.rows[i] && c in cols :: df.rows[i][c]))
  }

  /** `df[col]` for a column the frame has. */
  function ColumnValues(df: Frame, col: string): (y: seq<Cell>)
    requires WellFormed(df) && col in df.columns
    ensures |y| == |df.rows|
    ensures forall i :: 0 <= i < |y| ==> y[i] == df.rows[i][col]
  {
    seq(|df.rows|, i requires 0 <= i < |df.rows| => df.rows[i][col])
  }

  /** `get_feature_matrix(df, feature_cols)`: the features X and the `is_suspicious` target y. */
  function FeatureMatrix(df: Frame, featureCols: Option<seq<string>>): (r: Result<(Frame, seq<Cell>), LoadError>)
    requires WellFormed(df)
    ensures var cols := if featureCols.Some? then featureCols.value else DefaultFeatures;
            && (r.Err? && r.error.MissingFeatures? <==> exists c :: c in cols && c !in df.columns)
            && (r.Err? && r.error.MissingFeatures? ==>
                  IsSubsequence(r.error.missing, cols)
                  && forall c :: c in r.error.missing <==> c in cols && c !in df.columns)
            && (r.Ok? ==> r.value.0.columns == cols)
    ensures r.Err? && !r.error.MissingFeatures? ==> r.error == KeyError("is_suspicious") && "is_suspicious" !in df.columns
    ensures r.Ok? ==> |r.value.0.rows| == |df.rows| == |r.value.1|
    ensures r.Ok? ==> && WellFormed(r.value.0)
                      && forall i, c :: 0 <= i < |df.rows| && c in r.value.0.columns ==>
                           c in df.rows[i] && r.value.0.rows[i][c] == df.rows[i][c]
    ensures r.Ok? ==> && "is_suspicious" in df.columns
                      && forall i :: 0 <= i < |df.rows| ==> r.value.1[i] == df.rows[i]["is_suspicious"]
  {
    var cols := if featureCols.Some? then featureCols.value else DefaultFeatures;
    var missing := MissingColumns(cols, df.columns);
    if missing != [] then Err(MissingFeatures(missing))
    else if "is_suspicious" !in df.columns then Err(KeyError("is_suspicious"))
    else Ok((Select(df, cols), ColumnValues(df, "is_suspicious")))
  }
}

=== FILE: NewsText.dfy ===
/**
  `NewsScraper.clean_text`: collapse every run of whitespace to one space
  and trim the ends.
*/
module NewsText {
  import opened Wrappers
  import opened PyStr

  /** Every whitespace character is a single space between two non-space characters. */
  predicate SingleSpaced(s: string) {
    forall i :: 0 <= i < |s| && IsSpace(s[i]) ==>
      s[i] == ' ' && 0 < i < |s| - 1 && !IsSpace(s[i + 1])
  }

  /** `clean_text(text)`; `None` stands for a missing text. */
  function CleanText(text: Option<string>): (r: string)
    ensures text.None? || text.value == [] ==> r == []
    ensures Stripped(r) && SingleSpaced(r)
    ensures text.Some? ==> Words(r) == Words(text.value)
  {
    if text.None? || text.value == [] then []
    else
      var ws := Words(text.value);
      JoinWordsStripped(ws);
      JoinWordsSingleSpaced(ws);
      WordsOfJoin(ws);
      Strip(Join(ws, " "))
  }

  /** Cleaning a cleaned text changes nothing. */
  lemma CleanTextIdempotent(text: Option<string>)
    ensures CleanText(Some(CleanText(text))) == CleanText(text)
  {
    var r := CleanText(text);
    if r != [] {
      var ws := Words(r);
      WordsOfJoin(ws);
      JoinWordsStripped(ws);
      assert text.Some?;
      var ws0 := Words(text.value);
      JoinWordsStripped(ws0);
      assert r == Join(ws0, " ");
    }
  }

  /** Words joined by single spaces are single-spaced. */
  lemma {:induction false} JoinWordsSingleSpaced(ws: seq<string>)
    requires forall i :: 0 <= i < |ws| ==> IsWord(ws[i])
    ensures SingleSpaced(Join(ws, " "))
    decreases |ws|
  {
    if |ws| > 1 {
      JoinWordsSingleSpaced(ws[1..]);
      JoinWordsStripped(ws[1..]);
      var w, rest := ws[0], Join(ws[1..], " ");
      var j := Join(ws, " ");
      assert j == w + " " + rest;
      forall i | 0 <= i < |j| && IsSpace(j[i])
        ensures j[i] == ' ' && 0 < i < |j| - 1 && !IsSpace(j[i + 1])
      {
        if i == |w| {
          assert j[i + 1] == rest[0];
        } else if i > |w| {
          assert j[i] == rest[i - |w| - 1];
          if i + 1 < |j| {
            assert j[i + 1] == rest[i - |w|];
          }
        }
      }
    } else if |ws| == 1 {
      assert Join(ws, " ") == ws[0];
    }
  }
}

=== FILE: Pojk.dfy ===
/**
  The bookkeeping of the POJK collector: the search list built per keyword,
  file names and URL slugs derived from regulation numbers, the content-type
  check of a download, and the counting loop of `collect_all`. HTTP is a
  parameter; the output directory is a map from file name to content.
*/
module Pojk {
  import opened Wrappers
  import opened PyStr

  // ---------------------------------------------------------------------------
  // search_pojk
  // ---------------------------------------------------------------------------

  /** The regulation numbers listed for every keyword, in order. */
  const ImportantPojk: seq<string> :=
    ["POJK 30/2016", "POJK 31/2016", "POJK 35/2015", "POJK 11/2020", "POJK 32/2014",
     "POJK 33/2014", "POJK 34/2014", "POJK 35/2014", "POJK 13/2017"]

  datatype SearchEntry = SearchEntry(title: string, number: string, url: string, keywords: seq<string>, source: string)

  /** `pojk_num.replace('/', '-').lower()`. */
  function UrlSlug(number: string): string {
    Lower(ReplaceChar(number, '/', '-'))
  }

  /** A slug is as long as the number, has no path separator and no upper-case letter. */
  lemma UrlSlugShape(number: string)
    ensures |UrlSlug(number)| == |number|
    ensures '/' !in UrlSlug(number)
    ensures forall i :: 0 <= i < |number| ==> !IsUpper(UrlSlug(number)[i])
  {
    var r := ReplaceChar(number, '/', '-');
    forall i | 0 <= i < |number| ensures UrlSlug(number)[i] != '/' && !IsUpper(UrlSlug(number)[i]) {
      assert r[i] != '/';
    }
  }

  function SearchEntryFor(keyword: string, number: string): SearchEntry {
    SearchEntry("Peraturan OJK " + number, number,
                "https://www.ojk.go.id/id/regulasi/" + UrlSlug(number) + "/",
                [keyword], "ojk.go.id")
  }

  /** The entries added for one keyword, one per regulation number. */
  function KeywordEntries(numbers: seq<string>, keyword: string): seq<SearchEntry> {
    if numbers == [] then []
    else KeywordEntries(numbers[..|numbers| - 1], keyword) + [SearchEntryFor(keyword, numbers[|numbers| - 1])]
  }

  /** The search list for `keywords`, keyword after keyword. */
  function SearchList(numbers: seq<string>, keywords: seq<string>): seq<SearchEntry> {
    if keywords == [] then []
    else SearchList(numbers, keywords[..|keywords| - 1]) + KeywordEntries(numbers, keywords[|keywords| - 1])
  }

  /** One keyword's block lists the regulations in order, each tagged with that keyword. */
  lemma {:induction false} KeywordEntriesLayout(numbers: seq<string>, keyword: string)
    ensures |KeywordEntries(numbers, keyword)| == |numbers|
    ensures forall j :: 0 <= j < |numbers| ==> KeywordEntries(numbers, keyword)[j] == SearchEntryFor(keyword, numbers[j])
  {
    if numbers != [] {
      var prefix := numbers[..|numbers| - 1];
      KeywordEntriesLayout(prefix, keyword);
      forall j | 0 <= j < |prefix| ensures prefix[j] == numbers[j] { }
    }
  }

  /** The search list holds `|numbers|` entries per keyword. */
  lemma {:induction false} SearchListLength(numbers: seq<string>, keywords: seq<string>)
    ensures |SearchList(numbers, keywords)| == |numbers| * |keywords|
  {
    if keywords != [] {
      var m := |keywords| - 1;
      SearchListLength(numbers, keywords[..m]);
      KeywordEntriesLayout(numbers, keywords[m]);
      assert |numbers| * m + |numbers| == |numbers| * |keywords|;
    }
  }

  /**
    The block of keyword `k` starts at `|numbers| * k` and is exactly that
    keyword's entries: the list is grouped by keyword, in keyword order.
  */
  lemma {:induction false} SearchListBlock(numbers: seq<string>, keywords: seq<string>, k: nat)
    requires k < |keywords|
    ensures |numbers| * k + |numbers| <= |SearchList(numbers, keywords)|
    ensures SearchList(numbers, keywords)[|numbers| * k .. |numbers| * k + |numbers|] == KeywordEntries(numbers, keywords[k])
  {
    var n := |numbers|;
    var m := |keywords| - 1;
    var prefix := keywords[..m];
    var before := SearchList(numbers, prefix);
    var block := KeywordEntries(numbers, keywords[m]);
    SearchListLength(numbers, prefix);
    KeywordEntriesLayout(numbers, keywords[m]);
    assert SearchList(numbers, keywords) == before + block;
    if k < m {
      SearchListBlock(numbers, prefix, k);
      assert prefix[k] == keywords[k];
      assert (before + block)[n * k .. n * k + n] == before[n * k .. n * k + n];
    } else {
      assert (before + block)[n * k .. n * k + n] == block;
    }
  }

  /** `search_pojk(keywords)`: the listed regulations once per keyword. */
  method SearchPojk(keywords: seq<string>) returns (found: seq<SearchEntry>)
    ensures found == SearchList(ImportantPojk, keywords)
    ensures |found| == 9 * |keywords|
  {
    found := SearchEach(keywords, ImportantPojk);
    SearchListLength(ImportantPojk, keywords);
  }

  /** The two loops of `search_pojk` over a given list of regulation numbers. */
  method SearchEach(keywords: seq<string>, important: seq<string>) returns (found: seq<SearchEntry>)
    ensures found == SearchList(important, keywords)
  {
    found := [];
    for k := 0 to |keywords|
      invariant found == SearchList(important, keywords[..k])
    {
      assert keywords[..k + 1][..k] == keywords[..k];
      for j := 0 to |important|
        invariant found == SearchList(important, keywords[..k]) + KeywordEntries(important[..j], keywords[k])
      {
        assert important[..j + 1][..j] == important[..j];
        found := found + [SearchEntryFor(keywords[k], important[j])];
      }
      assert important[..|important|] == important;
    }
    assert keywords[..|keywords|] == keywords;
  }

  // ---------------------------------------------------------------------------
  // File names and the manual list
  // ---------------------------------------------------------------------------

  /** `f"{number.replace('/', '-')}.pdf"`. */
  function FileName(number: string): string {
    ReplaceChar(number, '/', '-') + ".pdf"
  }

  /** A file name has no path separator, ends in ".pdf", and is the number's length plus four. */
  lemma FileNameShape(number: string)
    ensures '/' !in FileName(number)
    ensures EndsWith(FileName(number), ".pdf")
    ensures |FileName(number)| == |number| + 4
  {
    var r := ReplaceChar(number, '/', '-');
    assert FileName(number)[|r|..] == ".pdf";
    forall i | 0 <= i < |r| ensures FileName(number)[i] != '/' {
      assert FileName(number)[i] == r[i];
    }
  }

  datatype PojkDoc = PojkDoc(number: string, title: string, year: int, category: string, url: string, relevance: string)

  /** `get_manual_pojk_list`. */
  const ManualPojkList: seq<PojkDoc> := [
    PojkDoc("POJK 30/2016", "Transaksi Material dan Perubahan Kegiatan Usaha", 2016, "Pasar Modal",
            "https://www.ojk.go.id/id/regulasi/Documents/Pages/Transaksi-Material-dan-Perubahan-Kegiatan-Usaha/POJK%2030%20-%202016.pdf",
            "HIGH"),
    PojkDoc("POJK 31/2016", "Transaksi Afiliasi dan Benturan Kepentingan", 2016, "Pasar Modal",
            "https://www.ojk.go.id/id/regulasi/Documents/Pages/Transaksi-Afiliasi-dan-Benturan-Kepentingan/POJK%2031%20-%202016.pdf",
            "HIGH"),
    PojkDoc("POJK 33/2014", "Direksi dan Dewan Komisaris Emiten atau Perusahaan Publik", 2014, "Pasar Modal",
            "https://www.ojk.go.id/id/regulasi/Documents/Pages/Direksi-dan-Dewan-Komisaris/POJK%2033-2014.pdf",
            "HIGH"),
    PojkDoc("POJK 34/2014", "Komite Audit pada Emiten atau Perusahaan Publik", 2014, "Pasar Modal",
            "https://www.ojk.go.id/id/regulasi/Documents/Pages/Komite-Audit/POJK%2034-2014.pdf",
            "MEDIUM"),
    PojkDoc("POJK 35/2014", "Sekretaris Perusahaan pada Emiten atau Perusahaan Publik", 2014, "Pasar Modal",
            "https://www.ojk.go.id/id/regulasi/Documents/Pages/Sekretaris-Perusahaan/POJK%2035-2014.pdf",
            "MEDIUM")
  ]

  // ---------------------------------------------------------------------------
  // download_pdf and collect_all
  // ---------------------------------------------------------------------------

  /** What `session.get(url)` gives: a failure (any exception or an error status) or a response. */
  datatype HttpResult = HttpFailure | HttpResponse(contentType: Option<string>, content: string)

  /** The response is accepted when its Content-Type mentions "pdf" in any letter case. */
  predicate IsPdfResponse(h: HttpResult) {
    h.HttpResponse? && Contains(Lower(if h.contentType.Some? then h.contentType.value else ""), "pdf")
  }

  /** The state of `collect_all` after some entries: what the loop variables and the directory hold. */
  datatype RunState = RunState(
    downloaded: int, failed: seq<string>, added: seq<PojkDoc>,
    files: map<string, string>, examined: nat, stopped: bool)

  /** One iteration of the `collect_all` loop on `doc`. */
  function Step(s: RunState, doc: PojkDoc, maxDocuments: int, fetch: string -> HttpResult): RunState {
    if s.stopped then s
    else
      var name := FileName(doc.number);
      if name in s.files then s.(downloaded := s.downloaded + 1, examined := s.examined + 1)
      else
        var h := fetch(doc.url);
        var t := if IsPdfResponse(h)
                 then s.(downloaded := s.downloaded + 1, added := s.added + [doc],
                         files := s.files[name := h.content], examined := s.examined + 1)
                 else s.(failed := s.failed + [doc.number], examined := s.examined + 1);
        t.(stopped := t.downloaded >= maxDocuments)
  }

  /** The loop run over `docs` from an empty tally and the directory `files`. */
  function Run(docs: seq<PojkDoc>, files: map<string, string>, maxDocuments: int, fetch: string -> HttpResult): RunState {
    if docs == [] then RunState(0, [], [], files, 0, false)
    else Step(Run(docs[..|docs| - 1], files, maxDocuments, fetch), docs[|docs| - 1], maxDocuments, fetch)
  }

  /** Extending the examined prefix by one entry is one more step. */
  lemma RunSnoc(docs: seq<PojkDoc>, i: nat, files: map<string, string>, maxDocuments: int, fetch: string -> HttpResult)
    requires i < |docs|
    ensures Run(docs[..i + 1], files, maxDocuments, fetch)
            == Step(Run(docs[..i], files, maxDocuments, fetch), docs[i], maxDocuments, fetch)
  {
    assert docs[..i + 1][..i] == docs[..i];
  }

  /** The three outcomes of a step that has not stopped: skipped, fetched, failed. */
  lemma StepCases(s: RunState, doc: PojkDoc, maxDocuments: int, fetch: string -> HttpResult)
    requires !s.stopped
    ensures var name := FileName(doc.number);
            && (name in s.files ==>
                  Step(s, doc, maxDocuments, fetch) == s.(downloaded := s.downloaded + 1, examined := s.examined + 1))
            && (name !in s.files && IsPdfResponse(fetch(doc.url)) ==>
                  Step(s, doc, maxDocuments, fetch)
                  == RunState(s.downloaded + 1, s.failed, s.added + [doc], s.files[name := fetch(doc.url).content],
                              s.examined + 1, s.downloaded + 1 >= maxDocuments))
            && (name !in s.files && !IsPdfResponse(fetch(doc.url)) ==>
                  Step(s, doc, maxDocuments, fetch)
                  == RunState(s.downloaded, s.failed + [doc.number], s.added, s.files,
                              s.examined + 1, s.downloaded >= maxDocuments))
  {
  }

  /** `number` belongs to an entry of `docs` whose download was refused. */
  predicate RefusedIn(docs: seq<PojkDoc>, fetch: string -> HttpResult, number: string) {
    exists d :: d in docs && d.number == number && !IsPdfResponse(fetch(d.url))
  }

  /**
    Tallies of a run state `s` over `docs`: every examined entry is counted
    once, as downloaded (already present or fetched) or as failed; metadata is
    added only for fresh PDF downloads, whose files are then written; every
    failure names an entry whose download was refused; conversely every
    examined entry ends with its file stored or its number among the failures
    (so a refused entry is never counted as downloaded); a run stops early only
    once `downloaded` has reached the limit; no existing file is removed.
  */
  predicate Accounted(docs: seq<PojkDoc>, files: map<string, string>, maxDocuments: int,
                      fetch: string -> HttpResult, s: RunState)
  {
    && s.downloaded + |s.failed| == s.examined
    && s.examined <= |docs|
    && 0 <= |s.added| <= s.downloaded
    && (s.stopped ==> s.downloaded >= maxDocuments)
    && (!s.stopped ==> s.examined == |docs|)
    && (forall i :: 0 <= i < |s.added| ==>
          && s.added[i] in docs && IsPdfResponse(fetch(s.added[i].url))
          && FileName(s.added[i].number) !in files && FileName(s.added[i].number) in s.files)
    && (forall i :: 0 <= i < |s.failed| ==> RefusedIn(docs, fetch, s.failed[i]))
    && (forall i :: 0 <= i < s.examined && i < |docs| ==>
          FileName(docs[i].number) in s.files || docs[i].number in s.failed)
    && files.Keys <= s.files.Keys
  }

  /** Every run is accounted for. */
  lemma {:induction false} RunTallies(docs: seq<PojkDoc>, files: map<string, string>, maxDocuments: int, fetch: string -> HttpResult)
    ensures Accounted(docs, files, maxDocuments, fetch, Run(docs, files, maxDocuments, fetch))
  {
    if docs != [] {
      var prefix := docs[..|docs| - 1];
      RunTallies(prefix, files, maxDocuments, fetch);
      var s := Run(prefix, files, maxDocuments, fetch);
      var doc := docs[|docs| - 1];
      assert doc in docs;
      forall i | 0 <= i < |s.added| ensures s.added[i] in docs {
        assert s.added[i] in prefix;
      }
      forall i | 0 <= i < |s.failed| ensures RefusedIn(docs, fetch, s.failed[i]) {
        assert RefusedIn(prefix, fetch, s.failed[i]);
        var d :| d in prefix && d.number == s.failed[i] && !IsPdfResponse(fetch(d.url));
        assert d in docs;
      }
      if !s.stopped {
        StepCases(s, doc, maxDocuments, fetch);
        if FileName(doc.number) !in s.files && !IsPdfResponse(fetch(doc.url)) {
          assert RefusedIn(docs, fetch, doc.number);
        }
      }
      var next := Run(docs, files, maxDocuments, fetch);
      assert next == Step(s, doc, maxDocuments, fetch);
      forall i | 0 <= i < next.examined && i < |docs|
        ensures FileName(docs[i].number) in next.files || docs[i].number in next.failed
      {
        if i < s.examined {
          assert docs[i] == prefix[i];
        }
      }
    }
  }

  /**
    `collect_all` examines at most `min(len(pojk_list), max_documents)`
    entries, so `downloaded` never exceeds either bound; a short run means
    the limit was reached.
  */
  lemma CollectBounds(pojkList: seq<PojkDoc>, maxDocuments: int, files: map<string, string>, fetch: string -> HttpResult)
    ensures var s := Run(Take(pojkList, maxDocuments), files, maxDocuments, fetch);
            && Accounted(Take(pojkList, maxDocuments), files, maxDocuments, fetch, s)
            && 0 <= s.downloaded <= s.examined <= |pojkList|
            && (maxDocuments >= 0 ==> s.examined <= maxDocuments)
            && (s.examined < |Take(pojkList, maxDocuments)| ==> s.downloaded >= maxDocuments)
  {
    RunTallies(Take(pojkList, maxDocuments), files, maxDocuments, fetch);
  }

  /** The collector's state: the output directory and the metadata list. */
  class Collector {
    var files: map<string, string>
    var metadata: seq<PojkDoc>

    /** A collector over an output directory that already holds `existing`. */
    constructor (existing: map<string, string>)
      ensures files == existing && metadata == []
    {
      files := existing;
      metadata := [];
    }

    /** `download_pdf(url, filename)`: write the body only when the response is a PDF. */
    method DownloadPdf(fetch: string -> HttpResult, url: string, filename: string) returns (ok: bool)
      modifies this
      ensures ok <==> IsPdfResponse(fetch(url))
      ensures files == if ok then old(files)[filename := fetch(url).content] else old(files)
      ensures metadata == old(metadata)
    {
      var response := fetch(url);
      if response.HttpFailure? {
        return false;
      }
      var contentType := if response.contentType.Some? then response.contentType.value else "";
      if !Contains(Lower(contentType), "pdf") {
        return false;
      }
      files := files[filename := response.content];
      return true;
    }

    /** `collect_all(max_documents)` over the manual list. */
    method CollectAll(maxDocuments: int, fetch: string -> HttpResult) returns (downloaded: int)
      modifies this
      ensures var s := Run(Take(ManualPojkList, maxDocuments), old(files), maxDocuments, fetch);
              && downloaded == s.downloaded
              && files == s.files
              && metadata == old(metadata) + s.added
    {
      downloaded := Collect(ManualPojkList, maxDocuments, fetch);
    }

    /** The loop of `collect_all` over `pojkList[:maxDocuments]`. */
    method Collect(pojkList: seq<PojkDoc>, maxDocuments: int, fetch: string -> HttpResult) returns (downloaded: int)
      modifies this
      ensures var s := Run(Take(pojkList, maxDocuments), old(files), maxDocuments, fetch);
              && downloaded == s.downloaded
              && files == s.files
              && metadata == old(metadata) + s.added
    {
      var entries := Take(pojkList, maxDocuments);
      downloaded := 0;
      var failed: seq<string> := [];
      ghost var added: seq<PojkDoc> := [];
      var i := 0;
      while i < |entries|
        invariant 0 <= i <= |entries|
        invariant Run(entries[..i], old(files), maxDocuments, fetch)
                  == RunState(downloaded, failed, added, files, i, false)
        invariant metadata == old(metadata) + added
        decreases |entries| - i
      {
        var pojk := entries[i];
        ghost var next := Step(RunState(downloaded, failed, added, files, i, false), pojk, maxDocuments, fetch);
        RunSnoc(entries, i, old(files), maxDocuments, fetch);
        StepCases(RunState(downloaded, failed, added, files, i, false), pojk, maxDocuments, fetch);
        assert Run(entries[..i + 1], old(files), maxDocuments, fetch) == next;
        var filename := FileName(pojk.number);
        if filename in files {
          downloaded := downloaded + 1;
          i := i + 1;
          assert next == RunState(downloaded, failed, added, files, i, false);
          continue;
        }
        var success := DownloadPdf(fetch, pojk.url, filename);
        if success {
          downloaded := downloaded + 1;
          metadata := metadata + [pojk];
          added := added + [pojk];
        } else {
          failed := failed + [pojk.number];
        }
        i := i + 1;
        assert next == RunState(downloaded, failed, added, files, i, downloaded >= maxDocuments);
        if downloaded >= maxDocuments {
          StoppedStays(entries, i, old(files), maxDocuments, fetch);
          return;
        }
      }
      assert entries[..i] == entries;
    }
  }

  /** Once a run has stopped, the remaining entries change nothing. */
  lemma {:induction false} StoppedStays(docs: seq<PojkDoc>, i: nat, files: map<string, string>, maxDocuments: int, fetch: string -> HttpResult)
    requires i <= |docs|
    requires Run(docs[..i], files, maxDocuments, fetch).stopped
    ensures Run(docs, files, maxDocuments, fetch) == Run(docs[..i], files, maxDocuments, fetch)
    decreases |docs| - i
  {
    if i < |docs| {
      assert docs[..i + 1][..i] == docs[..i];
      StoppedStays(docs, i + 1, files, maxDocuments, fetch);
    } else {
      assert docs[..i] == docs;
    }
  }
}

=== FILE: PyStr.dfy ===
/**
  The few Python `str` operations the Sentinel code relies on, stated over
  `seq<char>`: `isspace`, `lower`, `in`, slicing, `strip`, `replace` of one
  character by nothing, `split(sep)`, `split()` and `sep.join(parts)`.
*/
module PyStr {

  /** Python's `str.isspace()` on one code point. */
  predicate IsSpace(c: char) {
    || ('\t' <= c <= '\r')
    || ('\U{1C}' <= c <= '\U{1F}')
    || c == ' ' || c == '\U{85}' || c == '\U{A0}' || c == '\U{1680}'
    || ('\U{2000}' <= c <= '\U{200A}')
    || c == '\U{2028}' || c == '\U{2029}' || c == '\U{202F}' || c == '\U{205F}' || c == '\U{3000}'
  }

  predicate IsUpper(c: char) {
    'A' <= c <= 'Z'
  }

  /** `str.lower()` on one character; only the ASCII letters are mapped. */
  function LowerChar(c: char): (d: char)
    ensures !IsUpper(d)
    ensures IsUpper(c) ==> d as int == c as int + 32
    ensures !IsUpper(c) ==> d == c
  {
    if IsUpper(c) then (c as int + 32) as char else c
  }

  /** `str.lower()`: maps every character, keeps the length. */
  function Lower(s: string): (r: string)
    ensures |r| == |s|
    ensures forall i :: 0 <= i < |s| ==> r[i] == LowerChar(s[i])
  {
    if s == [] then [] else [LowerChar(s[0])] + Lower(s[1..])
  }

  predicate StartsWith(s: string, p: string) {
    |p| <= |s| && s[..|p|] == p
  }

  predicate EndsWith(s: string, p: string) {
    |p| <= |s| && s[|s| - |p|..] == p
  }

  /** Python's `p in s` for strings. */
  predicate Contains(s: string, p: string)
    decreases |s|
  {
    StartsWith(s, p) || (s != [] && Contains(s[1..], p))
  }

  /** `p` occurs in `s` starting at index `i`. */
  predicate OccursAt(s: string, p: string, i: int) {
    0 <= i <= |s| - |p| && s[i..i + |p|] == p
  }

  /** `p in s` holds exactly when `p` occurs at some position of `s`. */
  lemma {:induction false} ContainsAt(s: string, p: string)
    ensures Contains(s, p) <==> exists i :: OccursAt(s, p, i)
    decreases |s|
  {
    if s == [] {
      if p == [] {
        assert OccursAt(s, p, 0);
      }
    } else {
      ContainsAt(s[1..], p);
      if Contains(s[1..], p) {
        var i :| OccursAt(s[1..], p, i);
        assert OccursAt(s, p, i + 1);
      }
      if StartsWith(s, p) {
        assert OccursAt(s, p, 0);
      }
      if exists i :: OccursAt(s, p, i) {
        var i :| OccursAt(s, p, i);
        if i > 0 {
          assert OccursAt(s[1..], p, i - 1);
        }
      }
    }
  }

  /** A string holding a character that `s` lacks does not occur in `s`. */
  lemma AbsentChar(s: string, p: string, c: char)
    requires c in p && c !in s
    ensures !Contains(s, p)
  {
    var j :| 0 <= j < |p| && p[j] == c;
    forall i | 0 <= i <= |s| - |p|
      ensures !OccursAt(s, p, i)
    {
      assert s[i..i + |p|][j] == s[i + j];
    }
    ContainsAt(s, p);
  }

  /** A string of length one occurs exactly when its character does. */
  lemma {:induction false} ContainsChar(s: string, c: char)
    ensures Contains(s, [c]) <==> c in s
    decreases |s|
  {
    if s != [] {
      ContainsChar(s[1..], c);
      assert c in s <==> s[0] == c || c in s[1..];
    }
  }

  /** Python's normalisation of a slice bound `i` against a length. */
  function SliceBound(i: int, len: nat): (k: nat)
    ensures k <= len
    ensures 0 <= i <= len ==> k == i
    ensures i >= len ==> k == len
  {
    if i < 0 then (if len + i < 0 then 0 else len + i)
    else if i > len then len
    else i
  }

  /** Python's `s[a:b]` with either bound possibly negative or out of range. */
  function Slice<T>(s: seq<T>, a: int, b: int): (r: seq<T>)
    ensures |r| <= |s|
  {
    var i, j := SliceBound(a, |s|), SliceBound(b, |s|);
    if i <= j then s[i..j] else []
  }

  /** Python's `s[:n]`. */
  function Take<T>(s: seq<T>, n: int): (r: seq<T>)
    ensures r == s[..SliceBound(n, |s|)]
    ensures n >= 0 ==> |r| <= n
  {
    Slice(s, 0, n)
  }

  /** Python's `s[n:]`. */
  function Drop<T>(s: seq<T>, n: int): (r: seq<T>)
    ensures r == s[SliceBound(n, |s|)..]
  {
    Slice(s, n, |s|)
  }

  /** `s.replace(c, '')`: every occurrence of `c` removed, the rest kept in order. */
  function RemoveChar(s: string, c: char): (r: string)
    ensures c !in r
    ensures |r| <= |s|
    ensures forall x :: x in r ==> x in s
    ensures c !in s ==> r == s
  {
    if s == [] then []
    else if s[0] == c then RemoveChar(s[1..], c)
    else [s[0]] + RemoveChar(s[1..], c)
  }

  /** Removing a character distributes over concatenation. */
  lemma {:induction false} RemoveCharAppend(a: string, b: string, c: char)
    ensures RemoveChar(a + b, c) == RemoveChar(a, c) + RemoveChar(b, c)
    decreases |a|
  {
    if a != [] {
      assert (a + b)[1..] == a[1..] + b;
      RemoveCharAppend(a[1..], b, c);
    } else {
      assert a + b == b;
    }
  }

  /** `s.replace(a, b)` for single characters: every `a` becomes `b`. */
  function ReplaceChar(s: string, a: char, b: char): (r: string)
    ensures |r| == |s|
    ensures forall i {:trigger r[i]} :: 0 <= i < |s| ==> r[i] == if s[i] == a then b else s[i]
  {
    if s == [] then [] else [if s[0] == a then b else s[0]] + ReplaceChar(s[1..], a, b)
  }

  /** `s.lstrip()`. */
  function LStrip(s: string): (r: string)
    ensures |r| <= |s| && r == s[|s| - |r|..]
    ensures r == [] || !IsSpace(r[0])
    ensures forall i :: 0 <= i < |s| - |r| ==> IsSpace(s[i])
  {
    if s != [] && IsSpace(s[0]) then LStrip(s[1..]) else s
  }

  /** `s.rstrip()`. */
  function RStrip(s: string): (r: string)
    ensures |r| <= |s| && r == s[..|r|]
    ensures r == [] || !IsSpace(r[|r| - 1])
    ensures forall i :: |r| <= i < |s| ==> IsSpace(s[i])
  {
    if s != [] && IsSpace(s[|s| - 1]) then RStrip(s[..|s| - 1]) else s
  }

  predicate Stripped(s: string) {
    s == [] || (!IsSpace(s[0]) && !IsSpace(s[|s| - 1]))
  }

  /** `s.strip()`: a contiguous piece of `s` with no whitespace at either end. */
  function Strip(s: string): (r: string)
    ensures Stripped(r)
    ensures |r| <= |s|
    ensures forall c :: c in r ==> c in s
    ensures Stripped(s) ==> r == s
  {
    var l := LStrip(s);
    var r := RStrip(l);
    assert forall c :: c in r ==> c in l;
    assert Stripped(r) by {
      if r != [] {
        assert r[0] == l[0];
      }
    }
    r
  }

  /** `sep.join(parts)`. */
  function Join(parts: seq<string>, sep: string): (r: string)
    ensures |parts| == 1 ==> r == parts[0]
    decreases |parts|
  {
    if parts == [] then []
    else if |parts| == 1 then parts[0]
    else parts[0] + sep + Join(parts[1..], sep)
  }

  /** `s.split(sep)` for a one-character separator: never empty, no piece holds `sep`. */
  function Split(s: string, sep: char): (parts: seq<string>)
    ensures |parts| >= 1
    ensures forall i :: 0 <= i < |parts| ==> sep !in parts[i]
    decreases |s|
  {
    if s == [] then [[]]
    else
      var rest := Split(s[1..], sep);
      if s[0] == sep then [[]] + rest
      else [[s[0]] + rest[0]] + rest[1..]
  }

  /** Joining the pieces of a split with the same separator gives the string back. */
  lemma {:induction false} JoinSplit(s: string, sep: char)
    ensures Join(Split(s, sep), [sep]) == s
    decreases |s|
  {
    if s != [] {
      var rest := Split(s[1..], sep);
      JoinSplit(s[1..], sep);
      if s[0] == sep {
        assert Join(Split(s, sep), [sep]) == [] + [sep] + Join(rest, [sep]);
      } else if |rest| == 1 {
        assert Join(Split(s, sep), [sep]) == [s[0]] + rest[0];
      } else {
        assert Join(rest, [sep]) == rest[0] + [sep] + Join(rest[1..], [sep]);
        assert Split(s, sep)[1..] == rest[1..];
        assert Join(Split(s, sep), [sep]) == ([s[0]] + rest[0]) + [sep] + Join(rest[1..], [sep]);
      }
    }
  }

  /** A piece free of the separator, followed by the separator, splits off as one piece. */
  lemma {:induction false} SplitCons(w: string, sep: char, t: string)
    requires sep !in w
    ensures Split(w + [sep] + t, sep) == [w] + Split(t, sep)
    decreases |w|
  {
    if w == [] {
      assert ([] + [sep] + t)[1..] == t;
    } else {
      SplitCons(w[1..], sep, t);
      assert (w + [sep] + t)[1..] == w[1..] + [sep] + t;
      assert [w[0]] + w[1..] == w;
    }
  }

  /** A string free of the separator splits into itself alone. */
  lemma {:induction false} SplitNone(w: string, sep: char)
    requires sep !in w
    ensures Split(w, sep) == [w]
    decreases |w|
  {
    if w != [] {
      SplitNone(w[1..], sep);
      assert [w[0]] + w[1..] == w;
    }
  }

  /** Splitting a join of separator-free pieces gives the pieces back. */
  lemma {:induction false} SplitJoin(parts: seq<string>, sep: char)
    requires |parts| >= 1
    requires forall i :: 0 <= i < |parts| ==> sep !in parts[i]
    ensures Split(Join(parts, [sep]), sep) == parts
    decreases |parts|
  {
    if |parts| == 1 {
      SplitNone(parts[0], sep);
    } else {
      SplitJoin(parts[1..], sep);
      SplitCons(parts[0], sep, Join(parts[1..], [sep]));
      assert [parts[0]] + parts[1..] == parts;
    }
  }

  /** `s.split(sep)[0]` for a non-empty separator string: the text before its first occurrence. */
  function BeforeFirst(s: string, sep: string): (r: string)
    requires sep != []
    ensures |r| <= |s| && r == s[..|r|]
    ensures !Contains(r, sep)
    ensures |r| < |s| ==> StartsWith(s[|r|..], sep)
    ensures !Contains(s, sep) ==> r == s
    decreases |s|
  {
    if s == [] || StartsWith(s, sep) then []
    else
      var r' := BeforeFirst(s[1..], sep);
      assert !StartsWith([s[0]] + r', sep) by {
        if |sep| <= |[s[0]] + r'| {
          assert ([s[0]] + r')[..|sep|] == s[..|sep|];
        }
      }
      [s[0]] + r'
  }

  /** `w` is a word: non-empty and free of whitespace. */
  predicate IsWord(w: string) {
    w != [] && forall i :: 0 <= i < |w| ==> !IsSpace(w[i])
  }

  /** The leading run of non-whitespace characters of `s`. */
  function Word(s: string): (w: string)
    ensures |w| <= |s| && w == s[..|w|]
    ensures forall i :: 0 <= i < |w| ==> !IsSpace(w[i])
    ensures |w| < |s| ==> IsSpace(s[|w|])
    ensures s != [] && !IsSpace(s[0]) ==> w != []
  {
    if s == [] || IsSpace(s[0]) then [] else [s[0]] + Word(s[1..])
  }

  /** `s.split()` with no argument: the maximal runs of non-whitespace, in order. */
  function Words(s: string): (ws: seq<string>)
    ensures forall i :: 0 <= i < |ws| ==> IsWord(ws[i])
    decreases |s|
  {
    if s == [] then []
    else if IsSpace(s[0]) then Words(s[1..])
    else
      var w := Word(s);
      [w] + Words(s[|w|..])
  }

  /** A word followed by nothing or by whitespace is read back as that word. */
  lemma {:induction false} WordOfWord(w: string, t: string)
    requires IsWord(w)
    requires t == [] || IsSpace(t[0])
    ensures Word(w + t) == w
    decreases |w|
  {
    if |w| > 1 {
      WordOfWord(w[1..], t);
      assert (w + t)[1..] == w[1..] + t;
    } else {
      assert (w + t)[1..] == t;
    }
  }

  /** Splitting words joined by single spaces gives the same words back. */
  lemma {:induction false} WordsOfJoin(ws: seq<string>)
    requires forall i :: 0 <= i < |ws| ==> IsWord(ws[i])
    ensures Words(Join(ws, " ")) == ws
    decreases |ws|
  {
    if ws == [] {
    } else if |ws| == 1 {
      WordOfWord(ws[0], []);
      assert ws[0] + [] == ws[0];
      assert ws[0][|ws[0]|..] == [];
    } else {
      var w, rest := ws[0], Join(ws[1..], " ");
      var j := Join(ws, " ");
      assert j == w + (" " + rest);
      WordOfWord(w, " " + rest);
      assert j[0] == w[0];
      assert j[|w|..] == " " + rest;
      assert (" " + rest)[1..] == rest;
      WordsOfJoin(ws[1..]);
      assert [w] + ws[1..] == ws;
    }
  }

  /** Words joined by single spaces neither begin nor end with whitespace. */
  lemma {:induction false} JoinWordsStripped(ws: seq<string>)
    requires forall i :: 0 <= i < |ws| ==> IsWord(ws[i])
    ensures Stripped(Join(ws, " "))
    ensures ws != [] ==> Join(ws, " ") != [] && Join(ws, " ")[0] == ws[0][0]
    decreases |ws|
  {
    if |ws| > 1 {
      JoinWordsStripped(ws[1..]);
      var j := Join(ws, " ");
      var rest := Join(ws[1..], " ");
      assert j == ws[0] + " " + rest;
      assert j[|j| - 1] == rest[|rest| - 1];
    }
  }
}

=== FILE: Rag.dfy ===
/**
  The deterministic parts of the RAG components: the query sanitiser, the
  id stamping done while chunking documents, the three response shapes of
  `generate_answer`, and the precision@k evaluation. The text splitter, the
  vector store and the language model are passed in as functions.
*/
module Rag {
  import opened Wrappers
  import opened PyStr

  // ---------------------------------------------------------------------------
  // Query sanitiser
  // ---------------------------------------------------------------------------

  /** What a caller hands to the sanitiser: a string, or a value of any other type. */
  datatype QueryInput = Text(s: string) | NotText

  datatype SanitizeError = NotAString | ForbiddenPattern(pattern: string)

  const DefaultMaxLength: int := 1000

  /** The deny-list, in the order it is searched. */
  const ForbiddenPatterns: seq<string> :=
    ["import ", "exec(", "eval(", "__import__", "os.", "sys.",
     "subprocess", "open(", "file(", "compile("]

  /** The message carried by the raised ValueError. */
  function ErrorMessage(e: SanitizeError): string {
    match e
    case NotAString => "Query must be a string"
    case ForbiddenPattern(p) =>
      "Query contains forbidden pattern: '" + p + "'. Please rephrase your question."
  }

  /** The first pattern, in list order, that occurs in `lowered`. */
  function FirstForbidden(lowered: string, patterns: seq<string>): (r: Option<string>)
    ensures r.None? <==> forall i :: 0 <= i < |patterns| ==> !Contains(lowered, patterns[i])
    ensures r.Some? ==> r.value in patterns && Contains(lowered, r.value)
  {
    if patterns == [] then None
    else if Contains(lowered, patterns[0]) then Some(patterns[0])
    else FirstForbidden(lowered, patterns[1..])
  }

  /** No pattern before position `i` of `patterns` occurs in `lowered`. */
  predicate NoneBefore(lowered: string, patterns: seq<string>, i: nat)
    requires i <= |patterns|
  {
    forall j :: 0 <= j < i ==> !Contains(lowered, patterns[j])
  }

  lemma NoneBeforeCons(lowered: string, patterns: seq<string>, i: nat)
    requires patterns != [] && !Contains(lowered, patterns[0])
    requires i <= |patterns[1..]| && NoneBefore(lowered, patterns[1..], i)
    ensures NoneBefore(lowered, patterns, i + 1)
  {
    forall j | 0 <= j < i + 1 ensures !Contains(lowered, patterns[j]) {
      if j > 0 {
        assert patterns[j] == patterns[1..][j - 1];
      }
    }
  }

  /** The pattern returned is the earliest in the list that occurs: none before it occurs. */
  lemma {:induction false} FirstForbiddenIsFirst(lowered: string, patterns: seq<string>)
    ensures var r := FirstForbidden(lowered, patterns);
            r.Some? ==> exists i :: 0 <= i < |patterns| && patterns[i] == r.value && NoneBefore(lowered, patterns, i)
  {
    if patterns != [] && !Contains(lowered, patterns[0]) {
      var r := FirstForbidden(lowered, patterns);
      FirstForbiddenIsFirst(lowered, patterns[1..]);
      if r.Some? {
        var i :| 0 <= i < |patterns[1..]| && patterns[1..][i] == r.value && NoneBefore(lowered, patterns[1..], i);
        NoneBeforeCons(lowered, patterns, i);
        assert patterns[i + 1] == r.value;
      }
    }
  }

  /** A pattern that occurs, with no earlier pattern occurring, is the one returned. */
  lemma {:induction false} EarliestIsReturned(lowered: string, patterns: seq<string>, i: nat)
    requires i < |patterns| && Contains(lowered, patterns[i])
    requires forall j :: 0 <= j < i ==> !Contains(lowered, patterns[j])
    ensures FirstForbidden(lowered, patterns) == Some(patterns[i])
  {
    if i > 0 {
      assert !Contains(lowered, patterns[0]);
      assert forall j :: 0 <= j < i - 1 ==> patterns[1..][j] == patterns[j + 1];
      EarliestIsReturned(lowered, patterns[1..], i - 1);
    }
  }

  /** Some deny-list pattern occurs in `lowered`. */
  predicate HasForbidden(lowered: string)
    ensures HasForbidden(lowered) <==> exists i :: 0 <= i < |ForbiddenPatterns| && Contains(lowered, ForbiddenPatterns[i])
  {
    FirstForbidden(lowered, ForbiddenPatterns).Some?
  }

  /**
    `sanitize_query(query, max_length)`: type check, truncation, a
    case-insensitive deny-list check on the truncated text, then removal of
    NUL characters and stripping of surrounding whitespace.
  */
  function Sanitize(query: QueryInput, maxLength: int): (r: Result<string, SanitizeError>)
    ensures query.NotText? ==> r == Err(NotAString)
    ensures query.Text? ==>
              (r.Err? <==> HasForbidden(Lower(Take(query.s, maxLength))))
    ensures r.Err? && query.Text? ==> r.error.ForbiddenPattern?
                                      && r.error.pattern in ForbiddenPatterns
                                      && Contains(Lower(Take(query.s, maxLength)), r.error.pattern)
    ensures r.Ok? && maxLength >= 0 ==> |r.value| <= maxLength
    ensures r.Ok? ==> '\0' !in r.value && Stripped(r.value)
  {
    match query
    case NotText => Err(NotAString)
    case Text(s) =>
      var truncated := Take(s, maxLength);
      match FirstForbidden(Lower(truncated), ForbiddenPatterns)
      case Some(p) => Err(ForbiddenPattern(p))
      case None => Ok(Strip(RemoveChar(truncated, '\0')))
  }

  /** A query that is short enough, free of NUL, already stripped and free of every
      pattern passes through the sanitiser unchanged. */
  lemma CleanQueryUnchanged(s: string, maxLength: int)
    requires |s| <= maxLength
    requires '\0' !in s && Stripped(s)
    requires !HasForbidden(Lower(s))
    ensures Sanitize(Text(s), maxLength) == Ok(s)
  {
    var truncated := Take(s, maxLength);
    assert truncated == s;
    assert FirstForbidden(Lower(truncated), ForbiddenPatterns).None?;
    assert RemoveChar(truncated, '\0') == s;
    assert Strip(s) == s;
  }

  /** Lower-casing twice is lower-casing once. */
  lemma {:induction false} LowerIdempotent(s: string)
    ensures Lower(Lower(s)) == Lower(s)
  {
    assert forall i :: 0 <= i < |s| ==> LowerChar(LowerChar(s[i])) == LowerChar(s[i]);
  }

  /** Lower-casing commutes with truncation. */
  lemma LowerTake(s: string, n: int)
    ensures Lower(Take(s, n)) == Take(Lower(s), n)
  {
  }

  /** The deny-list check ignores letter case: a query is blocked exactly when
      its lower-cased form is. */
  lemma {:induction false} BlockingIgnoresCase(s: string, maxLength: int)
    ensures Sanitize(Text(s), maxLength).Err? <==> Sanitize(Text(Lower(s)), maxLength).Err?
  {
    LowerTake(s, maxLength);
    LowerTake(Lower(s), maxLength);
    LowerIdempotent(s);
    LowerIdempotent(Take(s, maxLength));
  }

  /** Upper-case spelling does not evade the check. */
  lemma UpperCaseImportBlocked(q: string)
    requires q == "IMPORT OS"
    ensures Sanitize(Text(q), DefaultMaxLength) == Err(ForbiddenPattern("import "))
  {
    assert Take(q, DefaultMaxLength) == q;
    assert Lower(q) == "import os";
    ImportFirst(Lower(q));
    RejectedWithFirst(q, DefaultMaxLength, 0);
  }

  /**
    The deny-list is checked before NUL characters are removed, so a pattern
    split by a NUL passes and is re-assembled in the output; sanitising that
    output again rejects it. The sanitiser is therefore not idempotent.
  */
  lemma NulSplitPatternPassesOnce(q: string)
    requires q == "imp\0ort x"
    ensures Sanitize(Text(q), DefaultMaxLength) == Ok("import x")
    ensures Sanitize(Text("import x"), DefaultMaxLength) == Err(ForbiddenPattern("import "))
  {
    NulSplitPasses(q);
    ImportBlocked("import x");
  }

  lemma NulSplitPasses(q: string)
    requires q == "imp\0ort x"
    ensures Sanitize(Text(q), DefaultMaxLength) == Ok("import x")
  {
    NulSplitPrepared(q);
    NulSplitNoPattern(q);
    AcceptedCleaned(q, DefaultMaxLength);
    NulSplitCleaned(q);
  }

  lemma NulSplitPrepared(q: string)
    requires q == "imp\0ort x"
    ensures Take(q, DefaultMaxLength) == q
    ensures Lower(Take(q, DefaultMaxLength)) == q
  {
    assert Take(q, DefaultMaxLength) == q;
    assert Lower(q) == q;
  }

  lemma NulSplitNoPattern(q: string)
    requires q == "imp\0ort x"
    ensures forall i :: 0 <= i < |ForbiddenPatterns| ==> !Contains(q, ForbiddenPatterns[i])
  {
    NulSplitAvoidsEach(q);
  }

  lemma NulSplitCleaned(q: string)
    requires q == "imp\0ort x"
    ensures Strip(RemoveChar(q, '\0')) == "import x"
  {
    NulRemoved(q);
    assert "imp" + "ort x" == "import x";
    assert Stripped("import x");
  }

  lemma NulRemoved(q: string)
    requires q == "imp\0ort x"
    ensures RemoveChar(q, '\0') == "imp" + "ort x"
  {
    var a, b := "imp", "ort x";
    assert q == a + "\0" + b;
    RemoveCharAppend(a + "\0", b, '\0');
    RemoveCharAppend(a, "\0", '\0');
    assert RemoveChar("\0", '\0') == [];
    assert RemoveChar(a, '\0') == a;
    assert RemoveChar(b, '\0') == b;
  }

  lemma ImportBlocked(q: string)
    requires q == "import x"
    ensures Sanitize(Text(q), DefaultMaxLength) == Err(ForbiddenPattern("import "))
  {
    ImportPrepared(q);
    ImportFirst(Lower(Take(q, DefaultMaxLength)));
    RejectedWithFirst(q, DefaultMaxLength, 0);
  }

  lemma ImportPrepared(q: string)
    requires q == "import x"
    ensures Lower(Take(q, DefaultMaxLength)) == q
    ensures StartsWith(q, "import ")
  {
    assert Take(q, DefaultMaxLength) == q;
    assert Lower(q) == q;
    assert q[..|"import "|] == "import ";
  }

  lemma NulSplitAvoidsEach(q: string)
    requires q == "imp\0ort x"
    ensures !Contains(q, "import ") && !Contains(q, "exec(") && !Contains(q, "eval(")
    ensures !Contains(q, "__import__") && !Contains(q, "os.") && !Contains(q, "sys.")
    ensures !Contains(q, "subprocess") && !Contains(q, "open(") && !Contains(q, "file(")
    ensures !Contains(q, "compile(")
  {
    forall i | 0 <= i <= |q| - 7
      ensures !OccursAt(q, "import ", i)
    {
      assert q[i..i + 7][0] == q[i] && q[i..i + 7][3] == q[i + 3];
    }
    ContainsAt(q, "import ");
    AbsentChar(q, "exec(", '(');
    AbsentChar(q, "eval(", '(');
    AbsentChar(q, "__import__", '_');
    AbsentChar(q, "os.", '.');
    AbsentChar(q, "sys.", '.');
    AbsentChar(q, "subprocess", 's');
    AbsentChar(q, "open(", '(');
    AbsentChar(q, "file(", '(');
    AbsentChar(q, "compile(", '(');
  }

  /** A query none of whose deny-list patterns occurs in its truncated, lowered text is accepted, cleaned. */
  lemma AcceptedCleaned(s: string, maxLength: int)
    requires forall i :: 0 <= i < |ForbiddenPatterns| ==> !Contains(Lower(Take(s, maxLength)), ForbiddenPatterns[i])
    ensures Sanitize(Text(s), maxLength) == Ok(Strip(RemoveChar(Take(s, maxLength), '\0')))
  {
  }

  /**
    A query is rejected naming pattern `i` when that pattern occurs in its
    truncated, lowered text and no earlier pattern of the list does.
  */
  lemma RejectedWithFirst(s: string, maxLength: int, i: nat)
    requires i < |ForbiddenPatterns| && Contains(Lower(Take(s, maxLength)), ForbiddenPatterns[i])
    requires forall j :: 0 <= j < i ==> !Contains(Lower(Take(s, maxLength)), ForbiddenPatterns[j])
    ensures Sanitize(Text(s), maxLength) == Err(ForbiddenPattern(ForbiddenPatterns[i]))
  {
    EarliestIsReturned(Lower(Take(s, maxLength)), ForbiddenPatterns, i);
  }

  lemma ImportFirst(lowered: string)
    requires StartsWith(lowered, "import ")
    ensures Contains(lowered, ForbiddenPatterns[0])
    ensures FirstForbidden(lowered, ForbiddenPatterns) == Some("import ")
  {
    assert ForbiddenPatterns[0] == "import ";
    assert Contains(lowered, ForbiddenPatterns[0]);
  }

  // ---------------------------------------------------------------------------
  // Document processing: chunk_id and doc_id stamping
  // ---------------------------------------------------------------------------

  datatype MetaValue = IntValue(n: int) | TextValue(t: string)

  type Metadata = map<string, MetaValue>

  /** A retrieval unit: chunk text plus its metadata (LangChain's Document). */
  datatype Chunk = Chunk(pageContent: string, metadata: Metadata)

  /** A metadata dict supplied by the caller; `process_documents` writes into it. */
  class MetaDict {
    var entries: Metadata

    constructor (entries: Metadata)
      ensures this.entries == entries
    {
      this.entries := entries;
    }
  }

  /** One input document: its optional 'text' and optional 'metadata' entries. */
  datatype DocInput = DocInput(text: Option<string>, metadata: Option<MetaDict>)

  /** `process_text`: one Document per chunk the splitter returns, each carrying the
      given metadata plus its position as `chunk_id`. */
  function ProcessText(split: string -> seq<string>, text: string, metadata: Metadata): (docs: seq<Chunk>)
    ensures |docs| == |split(text)|
  {
    var chunks := split(text);
    seq(|chunks|, i requires 0 <= i < |chunks| => Chunk(chunks[i], metadata["chunk_id" := IntValue(i)]))
  }

  /** Chunk `i` holds piece `i` and the caller's metadata with only `chunk_id` = i added or replaced. */
  lemma ProcessTextShape(split: string -> seq<string>, text: string, metadata: Metadata)
    ensures forall i :: 0 <= i < |ProcessText(split, text, metadata)| ==>
              var c := ProcessText(split, text, metadata)[i];
              && c.pageContent == split(text)[i]
              && c.metadata.Keys == metadata.Keys + {"chunk_id"}
              && c.metadata["chunk_id"] == IntValue(i)
              && forall k :: k in metadata && k != "chunk_id" ==> c.metadata[k] == metadata[k]
  {
  }

  /** The dicts the caller's documents share with `process_documents`. */
  function Dicts(documents: seq<DocInput>): set<MetaDict> {
    set j | 0 <= j < |documents| && documents[j].metadata.Some? :: documents[j].metadata.value
  }

  function TextOf(d: DocInput): string {
    if d.text.Some? then d.text.value else ""
  }

  /** The metadata of each input document as it currently is (`{}` when absent). */
  function MetasOf(documents: seq<DocInput>): (ms: seq<Metadata>)
    reads Dicts(documents)
    ensures |ms| == |documents|
  {
    seq(|documents|, j requires 0 <= j < |documents| reads Dicts(documents) =>
      if documents[j].metadata.Some? then documents[j].metadata.value.entries else map[])
  }

  /** Metadata `m` with `doc_id` set to `j`. */
  function WithDocId(m: Metadata, j: int): Metadata {
    m["doc_id" := IntValue(j)]
  }

  /** The chunks of the first `n` documents, concatenated in document order. */
  function AllChunks(split: string -> seq<string>, documents: seq<DocInput>, metas: seq<Metadata>, n: nat): seq<Chunk>
    requires n <= |documents| == |metas|
  {
    if n == 0 then []
    else AllChunks(split, documents, metas, n - 1)
         + ProcessText(split, TextOf(documents[n - 1]), WithDocId(metas[n - 1], n - 1))
  }

  /** The last index below `n` whose document shares dict `d`, or -1. */
  function LastUse(documents: seq<DocInput>, d: MetaDict, n: nat): (k: int)
    requires n <= |documents|
    ensures -1 <= k < n
    ensures k >= 0 ==> documents[k].metadata == Some(d)
    ensures forall j :: k < j < n ==> documents[j].metadata != Some(d)
  {
    if n == 0 then -1
    else if documents[n - 1].metadata == Some(d) then n - 1
    else LastUse(documents, d, n - 1)
  }

  /** The value of a caller's dict after the first `n` documents were processed. */
  function Stamped(m: Metadata, k: int): Metadata {
    if k < 0 then m else WithDocId(m, k)
  }

  /**
    `process_documents`: chunks every document in order, each chunk carrying
    `doc_id` (its document's index) and `chunk_id`; every dict supplied by the
    caller gets `doc_id` written in place, so a dict shared by several documents
    ends with the last of their indexes.
  */
  method ProcessDocuments(split: string -> seq<string>, documents: seq<DocInput>) returns (allDocs: seq<Chunk>)
    modifies Dicts(documents)
    ensures allDocs == AllChunks(split, documents, old(MetasOf(documents)), |documents|)
    ensures forall d :: d in Dicts(documents) ==>
              d.entries == Stamped(old(d.entries), LastUse(documents, d, |documents|))
  {
    ghost var metas := MetasOf(documents);
    allDocs := [];
    var i := 0;
    while i < |documents|
      invariant 0 <= i <= |documents|
      invariant allDocs == AllChunks(split, documents, metas, i)
      invariant forall d :: d in Dicts(documents) ==>
                  d.entries == Stamped(old(d.entries), LastUse(documents, d, i))
    {
      var doc := documents[i];
      var text := if doc.text.Some? then doc.text.value else "";
      var metadata: Metadata;
      if doc.metadata.Some? {
        var dict := doc.metadata.value;
        assert dict in Dicts(documents);
        dict.entries := dict.entries["doc_id" := IntValue(i)];
        metadata := dict.entries;
        assert metadata == WithDocId(metas[i], i);
      } else {
        metadata := map["doc_id" := IntValue(i)];
        assert metadata == WithDocId(metas[i], i);
      }
      var chunks := ProcessText(split, text, metadata);
      allDocs := allDocs + chunks;
      i := i + 1;
    }
  }

  /** Where the chunks of document `j` start in the concatenated output. */
  function Offset(split: string -> seq<string>, documents: seq<DocInput>, metas: seq<Metadata>, j: nat): nat
    requires j <= |documents| == |metas|
  {
    |AllChunks(split, documents, metas, j)|
  }

  /**
    Chunk provenance: chunk `c` of document `j` sits at position `Offset(j) + c` of
    the output and carries the splitter's text, the caller's metadata, `doc_id = j`
    and `chunk_id = c`.
  */
  lemma {:induction false} ChunkProvenance(split: string -> seq<string>, documents: seq<DocInput>,
                                           metas: seq<Metadata>, n: nat, j: nat, c: nat)
    requires n <= |documents| == |metas|
    requires j < n && c < |split(TextOf(documents[j]))|
    ensures Offset(split, documents, metas, j) + c < |AllChunks(split, documents, metas, n)|
    ensures AllChunks(split, documents, metas, n)[Offset(split, documents, metas, j) + c]
            == Chunk(split(TextOf(documents[j]))[c],
                     metas[j]["doc_id" := IntValue(j)]["chunk_id" := IntValue(c)])
    decreases n
  {
    if j < n - 1 {
      ChunkProvenance(split, documents, metas, n - 1, j, c);
    }
  }

  // ---------------------------------------------------------------------------
  // generate_answer
  // ---------------------------------------------------------------------------

  /** What the language-model chain does with a prompt: an answer or an exception message. */
  datatype LlmResult = Generated(text: string) | LlmFailure(message: string)

  /** The dict-specific key of each response shape: `error` or `sanitized`. */
  datatype Outcome = Blocked(error: string) | GenerationFailed(error: string) | Answered(sanitized: bool)

  datatype AnswerResponse = AnswerResponse(
    question: string,
    answer: string,
    sourceDocuments: seq<Chunk>,
    numSources: nat,
    outcome: Outcome)

  const BlockedAnswer: string :=
    "\U{26A0}\U{FE0F} Your query was blocked for security reasons. Please rephrase without special commands or code."

  const GenerationErrorPrefix: string := "\U{26A0}\U{FE0F} Error generating answer: "

  /** The question echoed in a blocked response: at most 100 characters, then "...". */
  function BlockedQuestion(query: string): (q: string)
    ensures |query| <= 100 ==> q == query
    ensures |query| > 100 ==> |q| == 103 && q == query[..100] + "..."
  {
    if |query| > 100 then query[..100] + "..." else query
  }

  /** The prompt context: retrieved chunk texts joined by blank lines. */
  function Context(docs: seq<Chunk>): string {
    Join(seq(|docs|, i requires 0 <= i < |docs| => docs[i].pageContent), "\n\n")
  }

  /**
    `RAGPipeline.generate_answer`: a query the sanitiser rejects gets the
    blocked response; otherwise the sanitised query is used for retrieval and
    for the prompt, and the model's failure or answer is reported.
  */
  function GenerateAnswer(query: string, retrieve: string -> seq<Chunk>,
                          llm: (string, string) -> LlmResult): (r: AnswerResponse)
    ensures r.numSources == |r.sourceDocuments|
    ensures r.outcome.Blocked? <==> Sanitize(Text(query), DefaultMaxLength).Err?
    ensures r.outcome.Blocked? ==>
              && r.sourceDocuments == []
              && r.question == BlockedQuestion(query)
              && r.answer == BlockedAnswer
              && r.outcome.error == ErrorMessage(Sanitize(Text(query), DefaultMaxLength).error)
    ensures !r.outcome.Blocked? ==>
              var sq := Sanitize(Text(query), DefaultMaxLength).value;
              && r.question == sq
              && r.sourceDocuments == retrieve(sq)
              && (r.outcome.Answered? <==> llm(Context(retrieve(sq)), sq).Generated?)
    ensures r.outcome.Answered? ==> r.outcome.sanitized == (query != r.question)
    ensures r.outcome.Answered? ==> r.answer == llm(Context(r.sourceDocuments), r.question).text
    ensures r.outcome.GenerationFailed? ==>
              var msg := llm(Context(r.sourceDocuments), r.question).message;
              && r.outcome.error == msg
              && r.answer == GenerationErrorPrefix + Take(msg, 100)
  {
    match Sanitize(Text(query), DefaultMaxLength)
    case Err(e) =>
      AnswerResponse(BlockedQuestion(query), BlockedAnswer, [], 0, Blocked(ErrorMessage(e)))
    case Ok(sq) =>
      var docs := retrieve(sq);
      match llm(Context(docs), sq)
      case LlmFailure(msg) =>
        AnswerResponse(sq, GenerationErrorPrefix + Take(msg, 100), docs, |docs|, GenerationFailed(msg))
      case Generated(answer) =>
        AnswerResponse(sq, answer, docs, |docs|, Answered(query != sq))
  }

  /** A blocked query reaches neither the vector store nor the model: the response
      is the same whatever they would do. */
  lemma BlockedQueryUsesNoBackend(query: string,
                                  retrieve1: string -> seq<Chunk>, llm1: (string, string) -> LlmResult,
                                  retrieve2: string -> seq<Chunk>, llm2: (string, string) -> LlmResult)
    requires Sanitize(Text(query), DefaultMaxLength).Err?
    ensures GenerateAnswer(query, retrieve1, llm1) == GenerateAnswer(query, retrieve2, llm2)
    ensures GenerateAnswer(query, retrieve1, llm1).numSources == 0
  {
  }

  /** Only the sanitised query reaches retrieval and the model: two queries with the
      same sanitised form get the same question, answer and sources. */
  lemma OnlySanitizedQueryReachesBackends(q1: string, q2: string,
                                          retrieve: string -> seq<Chunk>, llm: (string, string) -> LlmResult)
    requires Sanitize(Text(q1), DefaultMaxLength).Ok?
    requires Sanitize(Text(q1), DefaultMaxLength) == Sanitize(Text(q2), DefaultMaxLength)
    ensures var r1, r2 := GenerateAnswer(q1, retrieve, llm), GenerateAnswer(q2, retrieve, llm);
            r1.question == r2.question && r1.answer == r2.answer
            && r1.sourceDocuments == r2.sourceDocuments && r1.outcome.Answered? == r2.outcome.Answered?
  {
  }

  // ---------------------------------------------------------------------------
  // evaluate_retrieval: precision@k
  // ---------------------------------------------------------------------------

  /** A document id as read from chunk metadata; `None` when the chunk has no `doc_id`. */
  type DocKey = Option<MetaValue>

  /** One test case: the query and its `expected_doc_ids` (empty when absent). */
  datatype TestQuery = TestQuery(query: string, expectedDocIds: seq<DocKey>)

  datatype Metrics = Metrics(meanPrecision: real, scores: seq<real>, numQueries: nat)

  datatype EvalError = ZeroDivision

  function DocIdOf(c: Chunk): DocKey {
    if "doc_id" in c.metadata then Some(c.metadata["doc_id"]) else None
  }

  /** The set of `doc_id`s among the retrieved chunks. */
  function RetrievedIds(docs: seq<Chunk>): set<DocKey> {
    set i | 0 <= i < |docs| :: DocIdOf(docs[i])
  }

  function ExpectedIds(t: TestQuery): set<DocKey> {
    set i | 0 <= i < |t.expectedDocIds| :: t.expectedDocIds[i]
  }

  /** Precision: the share of retrieved ids that were expected. */
  function Precision(expected: set<DocKey>, retrieved: set<DocKey>): (p: real)
    requires retrieved != {}
    ensures 0.0 <= p <= 1.0
    ensures p == 1.0 <==> retrieved <= expected
  {
    var hits := expected * retrieved;
    assert |hits| <= |retrieved| && (hits != retrieved ==> |hits| < |retrieved|) by {
      SubsetCard(hits, retrieved);
      if hits != retrieved {
        ProperSubsetCard(hits, retrieved);
      }
    }
    |hits| as real / |retrieved| as real
  }

  lemma SubsetCard<T>(a: set<T>, b: set<T>)
    requires a <= b
    ensures |a| <= |b|
  {
    assert b == a + (b - a);
  }

  lemma ProperSubsetCard<T>(a: set<T>, b: set<T>)
    requires a <= b && a != b
    ensures |a| < |b|
  {
    var x :| x in b && x !in a;
    SubsetCard(a, b - {x});
  }

  /** A test case is scored only when it has expected ids; it then needs retrieved ids. */
  predicate Divides(retrieve: string -> seq<Chunk>, t: TestQuery) {
    ExpectedIds(t) == {} || RetrievedIds(retrieve(t.query)) != {}
  }

  /** The precision of every scored test case, in order. */
  function Scores(retrieve: string -> seq<Chunk>, tests: seq<TestQuery>): (s: seq<real>)
    requires forall i :: 0 <= i < |tests| ==> Divides(retrieve, tests[i])
    ensures |s| <= |tests|
    ensures forall i :: 0 <= i < |s| ==> 0.0 <= s[i] <= 1.0
  {
    if tests == [] then []
    else
      var t := tests[|tests| - 1];
      assert Divides(retrieve, t);
      var earlier := Scores(retrieve, tests[..|tests| - 1]);
      if ExpectedIds(t) == {} then earlier
      else earlier + [Precision(ExpectedIds(t), RetrievedIds(retrieve(t.query)))]
  }

  function Sum(s: seq<real>): real {
    if s == [] then 0.0 else Sum(s[..|s| - 1]) + s[|s| - 1]
  }

  /** The mean of scores each in [0, 1], 0.0 for none. */
  function Mean(s: seq<real>): (m: real)
    requires forall i :: 0 <= i < |s| ==> 0.0 <= s[i] <= 1.0
    ensures 0.0 <= m <= 1.0
  {
    SumBounds(s);
    if s == [] then 0.0 else Sum(s) / |s| as real
  }

  lemma {:induction false} SumBounds(s: seq<real>)
    requires forall i :: 0 <= i < |s| ==> 0.0 <= s[i] <= 1.0
    ensures 0.0 <= Sum(s) <= |s| as real
  {
    if s != [] {
      SumBounds(s[..|s| - 1]);
    }
  }

  /** Scoring one more test case appends its precision when it has expected ids. */
  lemma ScoresSnoc(retrieve: string -> seq<Chunk>, tests: seq<TestQuery>, i: nat)
    requires i < |tests|
    requires forall j :: 0 <= j <= i ==> Divides(retrieve, tests[j])
    ensures Scores(retrieve, tests[..i + 1])
            == if ExpectedIds(tests[i]) == {} then Scores(retrieve, tests[..i])
               else Scores(retrieve, tests[..i])
                    + [Precision(ExpectedIds(tests[i]), RetrievedIds(retrieve(tests[i].query)))]
  {
    assert tests[..i + 1][..i] == tests[..i];
  }

  /**
    `RAGPipeline.evaluate_retrieval`: fails with a division by zero exactly when
    some test case with expected ids retrieves nothing; otherwise reports each
    scored case's precision in order and their mean.
  */
  method EvaluateRetrieval(retrieve: string -> seq<Chunk>, tests: seq<TestQuery>)
    returns (r: Result<Metrics, EvalError>)
    ensures r.Err? <==> exists i :: 0 <= i < |tests| && !Divides(retrieve, tests[i])
    ensures r.Ok? ==> && r.value.scores == Scores(retrieve, tests)
                      && r.value.meanPrecision == Mean(r.value.scores)
                      && 0.0 <= r.value.meanPrecision <= 1.0
                      && r.value.numQueries == |tests|
  {
    var scores: seq<real> := [];
    for i := 0 to |tests|
      invariant forall j :: 0 <= j < i ==> Divides(retrieve, tests[j])
      invariant scores == Scores(retrieve, tests[..i])
    {
      var t := tests[i];
      var expected := ExpectedIds(t);
      var retrieved := RetrievedIds(retrieve(t.query));
      if expected != {} && retrieved == {} {
        assert !Divides(retrieve, tests[i]);
        return Err(ZeroDivision);
      }
      ScoresSnoc(retrieve, tests, i);
      if expected != {} {
        scores := scores + [Precision(expected, retrieved)];
      }
    }
    assert tests[..|tests|] == tests;
    return Ok(Metrics(Mean(scores), scores, |tests|));
  }
}

=== FILE: Schemas.dfy ===
/**
  The request and response records of the analysis API and their field
  constraints. Building a record either yields the value or names every
  field that failed, in declaration order.
*/
module Schemas {
  import opened Wrappers

  /** A field the caller may leave out, so that its default applies. */
  datatype Field<T> = Omitted | Provided(value: T)

  /** A field the caller handed in but which broke its constraint. */
  datatype ValidationError = InvalidFields(fields: seq<string>)

  const Roles: set<string> := {"Director", "Commissioner", "Major Shareholder"}
  const Actions: set<string> := {"BUY", "SELL"}
  const Severities: set<string> := {"CRITICAL", "HIGH", "MEDIUM", "LOW"}

  datatype TransactionData = TransactionData(
    date: string, company: string, insiderName: string, insiderRole: string,
    action: string, volume: int, price: real)

  predicate ValidTransaction(t: TransactionData) {
    t.insiderRole in Roles && t.action in Actions && t.volume > 0 && t.price > 0.0
  }

  /** The names of the constrained fields of `TransactionData` that `t` breaks, in declaration order. */
  function TransactionFailures(t: TransactionData): (fs: seq<string>)
    ensures fs == [] <==> ValidTransaction(t)
    ensures "insider_role" in fs <==> t.insiderRole !in Roles
    ensures "action" in fs <==> t.action !in Actions
    ensures "volume" in fs <==> t.volume <= 0
    ensures "price" in fs <==> t.price <= 0.0
  {
    (if t.insiderRole in Roles then [] else ["insider_role"])
    + (if t.action in Actions then [] else ["action"])
    + (if t.volume > 0 then [] else ["volume"])
    + (if t.price > 0.0 then [] else ["price"])
  }

  /** `TransactionData(...)`: accepted exactly when every constraint holds. */
  function BuildTransaction(t: TransactionData): (r: Result<TransactionData, ValidationError>)
    ensures r.Ok? <==> ValidTransaction(t)
    ensures r.Ok? ==> r.value == t
    ensures r.Err? ==> r.error.fields != [] && r.error.fields == TransactionFailures(t)
  {
    var fs := TransactionFailures(t);
    if fs == [] then Ok(t) else Err(InvalidFields(fs))
  }

  datatype Alert = Alert(severity: string, title: string, description: string, ruleViolated: Option<string>)

  predicate ValidAlert(a: Alert) {
    a.severity in Severities
  }

  /** `Alert(...)`: the severity must be one of the four levels; `rule_violated` defaults to None. */
  function BuildAlert(severity: string, title: string, description: string, ruleViolated: Field<Option<string>>)
    : (r: Result<Alert, ValidationError>)
    ensures r.Ok? <==> severity in Severities
    ensures r.Ok? ==> && r.value.severity == severity && r.value.title == title
                      && r.value.description == description
                      && r.value.ruleViolated == (if ruleViolated.Provided? then ruleViolated.value else None)
    ensures r.Err? ==> r.error == InvalidFields(["severity"])
  {
    if severity !in Severities then Err(InvalidFields(["severity"]))
    else Ok(Alert(severity, title, description, if ruleViolated.Provided? then ruleViolated.value else None))
  }

  datatype Citation = Citation(source: string, article: string, text: string)

  /** Free-form request options (values are not interpreted). */
  type Options = map<string, string>

  datatype AnalysisRequest = AnalysisRequest(transaction: TransactionData, options: Option<Options>)

  /** `AnalysisRequest(...)`: an omitted `options` becomes a fresh empty dict; an explicit None stays None. */
  function BuildRequest(transaction: TransactionData, options: Field<Option<Options>>)
    : (r: Result<AnalysisRequest, ValidationError>)
    ensures r.Ok? <==> ValidTransaction(transaction)
    ensures r.Ok? ==> r.value.transaction == transaction
    ensures r.Ok? && options.Omitted? ==> r.value.options == Some(map[])
    ensures r.Ok? && options.Provided? ==> r.value.options == options.value
  {
    var t := BuildTransaction(transaction);
    if t.Err? then Err(t.error)
    else Ok(AnalysisRequest(t.value, if options.Omitted? then Some(map[]) else options.value))
  }

  datatype AnalysisResponse = AnalysisResponse(
    transactionId: string, alerts: seq<Alert>, riskScore: real,
    citations: seq<Citation>, processingTime: real, timestamp: string)

  /**
    `AnalysisResponse(...)`: the risk score must lie in [0, 1]; alerts and
    citations default to empty lists and the timestamp to the current time,
    given as `now`.
  */
  function BuildResponse(transactionId: string, alerts: Field<seq<Alert>>, riskScore: real,
                         citations: Field<seq<Citation>>, processingTime: real,
                         timestamp: Field<string>, now: string)
    : (r: Result<AnalysisResponse, ValidationError>)
    ensures r.Ok? <==> 0.0 <= riskScore <= 1.0
    ensures r.Err? ==> r.error == InvalidFields(["risk_score"])
    ensures r.Ok? ==> && r.value.riskScore == riskScore
                      && r.value.alerts == (if alerts.Provided? then alerts.value else [])
                      && r.value.citations == (if citations.Provided? then citations.value else [])
                      && r.value.timestamp == (if timestamp.Provided? then timestamp.value else now)
  {
    if !(0.0 <= riskScore <= 1.0) then Err(InvalidFields(["risk_score"]))
    else Ok(AnalysisResponse(
      transactionId,
      if alerts.Provided? then alerts.value else [],
      riskScore,
      if citations.Provided? then citations.value else [],
      processingTime,
      if timestamp.Provided? then timestamp.value else now))
  }
}

=== FILE: Seqs.dfy ===
/**
  Generic list helpers: subsequences and order-preserving filters, the shape
  of Python's `[x for x in xs if p(x)]`.
*/
module Seqs {

  /** `a` is obtained from `b` by deleting elements, keeping the order of the rest. */
  predicate IsSubsequence<T(==)>(a: seq<T>, b: seq<T>)
    decreases |b|
  {
    if a == [] then true
    else if b == [] then false
    else if a[0] == b[0] then IsSubsequence(a[1..], b[1..])
    else IsSubsequence(a, b[1..])
  }

  /** `[x for x in s if keep(x)]`. */
  function Filter<T>(keep: T -> bool, s: seq<T>): (r: seq<T>)
    ensures |r| <= |s|
    ensures forall i :: 0 <= i < |r| ==> r[i] in s && keep(r[i])
    ensures forall i :: 0 <= i < |s| && keep(s[i]) ==> s[i] in r
    decreases |s|
  {
    if s == [] then []
    else if keep(s[0]) then [s[0]] + Filter(keep, s[1..])
    else Filter(keep, s[1..])
  }

  /** The filtered list keeps the input order. */
  lemma {:induction false} FilterIsSubsequence<T>(keep: T -> bool, s: seq<T>)
    ensures IsSubsequence(Filter(keep, s), s)
    decreases |s|
  {
    if s != [] {
      FilterIsSubsequence(keep, s[1..]);
      var r := Filter(keep, s[1..]);
      if keep(s[0]) {
        assert ([s[0]] + r)[1..] == r;
      } else {
        SubsequenceOfTail(r, s);
      }
    }
  }

  /** A subsequence of the tail is a subsequence of the whole list. */
  lemma {:induction false} SubsequenceOfTail<T>(a: seq<T>, b: seq<T>)
    requires b != [] && IsSubsequence(a, b[1..])
    ensures IsSubsequence(a, b)
    decreases |b|, |a|
  {
    if a != [] && a[0] == b[0] {
      SubsequenceDropHead(a, b[1..]);
    }
  }

  /** Dropping the first element of a subsequence keeps it a subsequence. */
  lemma {:induction false} SubsequenceDropHead<T>(a: seq<T>, b: seq<T>)
    requires a != [] && IsSubsequence(a, b)
    ensures IsSubsequence(a[1..], b)
    decreases |b|, |a|
  {
    if a[0] == b[0] {
      SubsequenceOfTail(a[1..], b);
    } else {
      SubsequenceDropHead(a, b[1..]);
      SubsequenceOfTail(a[1..], b);
    }
  }

  /** Filtering a list extended by one element. */
  lemma {:induction false} FilterSnoc<T>(keep: T -> bool, s: seq<T>, x: T)
    ensures Filter(keep, s + [x]) == Filter(keep, s) + (if keep(x) then [x] else [])
    decreases |s|
  {
    if s == [] {
      assert s + [x] == [x];
    } else {
      assert (s + [x])[1..] == s[1..] + [x];
      FilterSnoc(keep, s[1..], x);
    }
  }

  /** Filtering one more element of a prefix. */
  lemma FilterStep<T>(keep: T -> bool, s: seq<T>, i: nat)
    requires i < |s|
    ensures Filter(keep, s[..i + 1]) == Filter(keep, s[..i]) + (if keep(s[i]) then [s[i]] else [])
  {
    assert s[..i + 1] == s[..i] + [s[i]];
    FilterSnoc(keep, s[..i], s[i]);
  }

  /** Every element is kept by exactly one of a filter and its complement. */
  lemma {:induction false} FilterComplement<T>(keep: T -> bool, drop: T -> bool, s: seq<T>)
    requires forall x :: drop(x) == !keep(x)
    ensures |Filter(keep, s)| + |Filter(drop, s)| == |s|
    decreases |s|
  {
    if s != [] {
      FilterComplement(keep, drop, s[1..]);
    }
  }
}

=== FILE: Validation.dfy ===
/**
  The declarative table schemas for synthetic transactions and scraped news
  articles. A schema is a list of column specifications; validation collects
  every failure (the lazy mode) and either returns the frame unchanged or the
  set of failures. Columns outside the schema are ignored.
*/
module Validation {
  import opened Wrappers
  import opened Frames

  // ---------------------------------------------------------------------------
  // Column specifications
  // ---------------------------------------------------------------------------

  datatype Kind = StrKind | IntKind | BoolKind

  /** One column: its name, dtype, whether nulls pass, whether values must be distinct, and its checks. */
  datatype ColumnSpec = ColumnSpec(name: string, kind: Kind, nullable: bool, unique: bool, check: Cell -> bool)

  predicate HasKind(c: Cell, k: Kind) {
    match k
    case StrKind => c.Str?
    case IntKind => c.Int?
    case BoolKind => c.Bool?
  }

  /** A null passes only a nullable column; checks are not applied to nulls. */
  predicate CellPasses(spec: ColumnSpec, c: Cell) {
    if c.Null? then spec.nullable else HasKind(c, spec.kind) && spec.check(c)
  }

  /** What lazy validation reports. */
  datatype Failure =
    | ColumnMissing(column: string)
    | CellRejected(column: string, row: nat)
    | DuplicateValue(column: string, row: nat)

  /** Row `i` shares its value in `name` with another row. */
  predicate Duplicated(df: Frame, name: string, i: nat) {
    exists j :: 0 <= j < |df.rows| && j != i && i < |df.rows|
                && name in df.rows[i] && name in df.rows[j] && df.rows[j][name] == df.rows[i][name]
  }

  /** No two rows share a value in column `name`. */
  predicate UniqueValues(df: Frame, name: string) {
    forall i, j :: 0 <= i < |df.rows| && 0 <= j < |df.rows| && i != j && name in df.rows[i] && name in df.rows[j] ==>
                   df.rows[i][name] != df.rows[j][name]
  }

  lemma RowHasColumn(df: Frame, i: nat, name: string)
    requires WellFormed(df) && i < |df.rows| && name in df.columns
    ensures name in df.rows[i]
  {
    assert name in set c | c in df.columns;
  }

  /** The failures of one column. */
  function ColumnFailures(spec: ColumnSpec, df: Frame): set<Failure>
    requires WellFormed(df)
  {
    if spec.name !in df.columns then {ColumnMissing(spec.name)}
    else
      (set i: nat | i < |df.rows| && !CellPasses(spec, (RowHasColumn(df, i, spec.name); df.rows[i][spec.name]))
         :: CellRejected(spec.name, i))
      + (if spec.unique then set i: nat | i < |df.rows| && Duplicated(df, spec.name, i) :: DuplicateValue(spec.name, i)
         else {})
  }

  /** The failures of every column of `schema`. */
  function Failures(schema: seq<ColumnSpec>, df: Frame): set<Failure>
    requires WellFormed(df)
  {
    if schema == [] then {} else ColumnFailures(schema[0], df) + Failures(schema[1..], df)
  }

  /** The column is present, every cell passes, and, when required, values are distinct. */
  predicate ColumnHolds(spec: ColumnSpec, df: Frame)
    requires WellFormed(df)
  {
    && spec.name in df.columns
    && (forall i :: 0 <= i < |df.rows| ==> (RowHasColumn(df, i, spec.name); CellPasses(spec, df.rows[i][spec.name])))
    && (spec.unique ==> UniqueValues(df, spec.name))
  }

  /** A column reports nothing exactly when it holds. */
  lemma ColumnFailuresEmpty(spec: ColumnSpec, df: Frame)
    requires WellFormed(df)
    ensures ColumnFailures(spec, df) == {} <==> ColumnHolds(spec, df)
  {
    if spec.name in df.columns {
      if ColumnFailures(spec, df) == {} {
        forall i | 0 <= i < |df.rows|
          ensures (RowHasColumn(df, i, spec.name); CellPasses(spec, df.rows[i][spec.name]))
        {
          RowHasColumn(df, i, spec.name);
          assert CellRejected(spec.name, i) !in ColumnFailures(spec, df);
        }
        if spec.unique {
          forall i, j | 0 <= i < |df.rows| && 0 <= j < |df.rows| && i != j && spec.name in df.rows[i] && spec.name in df.rows[j]
            ensures df.rows[i][spec.name] != df.rows[j][spec.name]
          {
            assert DuplicateValue(spec.name, i) !in ColumnFailures(spec, df);
          }
        }
      }
      if ColumnHolds(spec, df) {
        forall f | f in ColumnFailures(spec, df) ensures false {
        }
      }
    }
  }

  /** A schema reports nothing exactly when every one of its columns holds. */
  lemma {:induction false} FailuresEmpty(schema: seq<ColumnSpec>, df: Frame)
    requires WellFormed(df)
    ensures Failures(schema, df) == {} <==> forall k :: 0 <= k < |schema| ==> ColumnHolds(schema[k], df)
  {
    if schema != [] {
      ColumnFailuresEmpty(schema[0], df);
      FailuresEmpty(schema[1..], df);
      assert forall k :: 1 <= k < |schema| ==> schema[k] == schema[1..][k - 1];
    }
  }

  /** `schema.validate(df, lazy=True)`: the frame unchanged, or every failure found. */
  function Validate(schema: seq<ColumnSpec>, df: Frame): (r: Result<Frame, set<Failure>>)
    requires WellFormed(df)
    ensures r.Ok? <==> forall k :: 0 <= k < |schema| ==> ColumnHolds(schema[k], df)
    ensures r.Ok? ==> r.value == df
    ensures r.Err? ==> r.error != {}
  {
    FailuresEmpty(schema, df);
    var failures := Failures(schema, df);
    if failures == {} then Ok(df) else Err(failures)
  }

  /** A required column that is absent is always reported. */
  lemma {:induction false} MissingColumnReported(schema: seq<ColumnSpec>, df: Frame, k: nat)
    requires WellFormed(df) && k < |schema| && schema[k].name !in df.columns
    ensures ColumnMissing(schema[k].name) in Failures(schema, df)
  {
    if k > 0 {
      assert schema[k] == schema[1..][k - 1];
      MissingColumnReported(schema[1..], df, k - 1);
    }
  }

  // ---------------------------------------------------------------------------
  // The transaction schema
  // ---------------------------------------------------------------------------

  const Tickers: seq<string> :=
    ["BBCA", "BBRI", "BMRI", "TLKM", "ASII", "UNVR", "ICBP", "GGRM", "INDF", "KLBF",
     "HMSP", "SMGR", "JPFA", "PTPP", "WIKA", "JSMR", "MNC", "PGAS", "ADRO", "ITMG"]

  const SchemaRoles: seq<string> := ["Director", "Commissioner", "Major Shareholder (>5%)", "CFO", "CEO"]

  /** `company` is one of the listed tickers. */
  predicate IsTicker(s: string) {
    s in Tickers
  }

  /** `insider_role` is one of the listed roles. */
  predicate IsSchemaRole(s: string) {
    s in SchemaRoles
  }

  const TransactionIdColumn: ColumnSpec := ColumnSpec("transaction_id", StrKind, false, true, (c: Cell) => true)
  const TransactionDateColumn: ColumnSpec := ColumnSpec("date", StrKind, false, false, (c: Cell) => true)
  const CompanyColumn: ColumnSpec := ColumnSpec("company", StrKind, false, false, (c: Cell) => c.Str? && IsTicker(c.s))
  const InsiderNameColumn: ColumnSpec := ColumnSpec("insider_name", StrKind, false, false, (c: Cell) => true)
  const InsiderRoleColumn: ColumnSpec := ColumnSpec("insider_role", StrKind, false, false, (c: Cell) => c.Str? && IsSchemaRole(c.s))
  const ActionColumn: ColumnSpec := ColumnSpec("action", StrKind, false, false, (c: Cell) => c.Str? && c.s in ["BUY", "SELL"])
  const VolumeColumn: ColumnSpec := ColumnSpec("volume", IntKind, false, false, (c: Cell) => c.Int? && 0 < c.i < 10_000_000)
  const PriceColumn: ColumnSpec := ColumnSpec("price", IntKind, false, false, (c: Cell) => c.Int? && 0 < c.i < 100_000)
  const TotalValueColumn: ColumnSpec := ColumnSpec("total_value", IntKind, false, false, (c: Cell) => c.Int? && c.i > 0)
  const DaysToEarningsColumn: ColumnSpec := ColumnSpec("days_to_earnings", IntKind, false, false, (c: Cell) => c.Int? && 0 <= c.i <= 90)
  const IsSuspiciousColumn: ColumnSpec := ColumnSpec("is_suspicious", BoolKind, false, false, (c: Cell) => true)
  const ViolationTypeColumn: ColumnSpec := ColumnSpec("violation_type", StrKind, true, false, (c: Cell) => true)

  const TransactionSchema: seq<ColumnSpec> := [
    TransactionIdColumn,
    TransactionDateColumn,
    CompanyColumn,
    InsiderNameColumn,
    InsiderRoleColumn,
    ActionColumn,
    VolumeColumn,
    PriceColumn,
    TotalValueColumn,
    DaysToEarningsColumn,
    IsSuspiciousColumn,
    ViolationTypeColumn
  ]

  const TransactionColumns: seq<string> := ColumnNames(TransactionSchema)

  /** A transaction row, field by field, as the schema constrains it. */
  predicate TransactionRowValid(r: Row) {
    && "transaction_id" in r && "date" in r && "company" in r && "insider_name" in r
    && "insider_role" in r && "action" in r && "volume" in r && "price" in r
    && "total_value" in r && "days_to_earnings" in r && "is_suspicious" in r && "violation_type" in r
    && r["transaction_id"].Str? && r["date"].Str? && r["insider_name"].Str?
    && r["company"].Str? && IsTicker(r["company"].s)
    && r["insider_role"].Str? && IsSchemaRole(r["insider_role"].s)
    && r["action"].Str? && r["action"].s in ["BUY", "SELL"]
    && r["volume"].Int? && 0 < r["volume"].i < 10_000_000
    && r["price"].Int? && 0 < r["price"].i < 100_000
    && r["total_value"].Int? && r["total_value"].i > 0
    && r["days_to_earnings"].Int? && 0 <= r["days_to_earnings"].i <= 90
    && r["is_suspicious"].Bool?
    && (r["violation_type"].Null? || r["violation_type"].Str?)
  }

  /** A transaction table: every schema column present, every row valid, identifiers distinct. */
  predicate TransactionTableValid(df: Frame) {
    && (forall c :: c in TransactionColumns ==> c in df.columns)
    && (forall i :: 0 <= i < |df.rows| ==> TransactionRowValid(df.rows[i]))
    && UniqueValues(df, "transaction_id")
  }

  /** Every column of `schema` is present in row `r` and its cell passes. */
  predicate RowPasses(schema: seq<ColumnSpec>, r: Row) {
    forall k :: 0 <= k < |schema| ==> schema[k].name in r && CellPasses(schema[k], r[schema[k].name])
  }

  /** The names of the schema's columns, in order. */
  function ColumnNames(schema: seq<ColumnSpec>): (names: seq<string>)
    ensures |names| == |schema|
    ensures forall k :: 0 <= k < |schema| ==> names[k] == schema[k].name
  {
    if schema == [] then [] else [schema[0].name] + ColumnNames(schema[1..])
  }

  /** Column by column is the same as row by row, plus presence and distinctness. */
  lemma ColumnsAsRows(schema: seq<ColumnSpec>, df: Frame)
    requires WellFormed(df)
    ensures (forall k :: 0 <= k < |schema| ==> ColumnHolds(schema[k], df))
            <==> && (forall k :: 0 <= k < |schema| ==> schema[k].name in df.columns)
                 && (forall i :: 0 <= i < |df.rows| ==> RowPasses(schema, df.rows[i]))
                 && (forall k :: 0 <= k < |schema| && schema[k].unique ==> UniqueValues(df, schema[k].name))
  {
    if forall k :: 0 <= k < |schema| ==> schema[k].name in df.columns {
      forall k, i | 0 <= k < |schema| && 0 <= i < |df.rows| ensures schema[k].name in df.rows[i] {
        RowHasColumn(df, i, schema[k].name);
      }
    }
  }

  /**
    For a schema whose first column alone is unique: column by column is the
    same as every column present, every row passing, and that column distinct.
  */
  lemma TableMeaning(schema: seq<ColumnSpec>, df: Frame)
    requires WellFormed(df) && schema != []
    requires forall k :: 0 <= k < |schema| && schema[k].unique ==> k == 0
    requires schema[0].unique
    ensures (forall k :: 0 <= k < |schema| ==> ColumnHolds(schema[k], df))
            <==> && (forall c :: c in ColumnNames(schema) ==> c in df.columns)
                 && (forall i :: 0 <= i < |df.rows| ==> RowPasses(schema, df.rows[i]))
                 && UniqueValues(df, schema[0].name)
  {
    ColumnsAsRows(schema, df);
    var names := ColumnNames(schema);
    assert (forall c :: c in names ==> c in df.columns) <==> (forall k :: 0 <= k < |schema| ==> schema[k].name in df.columns) by {
      if forall k :: 0 <= k < |schema| ==> schema[k].name in df.columns {
        forall c | c in names ensures c in df.columns {
          var k :| 0 <= k < |names| && names[k] == c;
        }
      }
      if forall c :: c in names ==> c in df.columns {
        forall k | 0 <= k < |schema| ensures schema[k].name in df.columns {
          assert names[k] in names;
        }
      }
    }
  }

  /** A row that passes the transaction schema has every field `TransactionRowValid` names. */
  lemma TransactionRowPasses(r: Row)
    requires RowPasses(TransactionSchema, r)
    ensures TransactionRowValid(r)
  {
    var s := TransactionSchema;
    assert s[0].name in r && CellPasses(s[0], r[s[0].name]);
    assert s[1].name in r && CellPasses(s[1], r[s[1].name]);
    assert s[2].name in r && CellPasses(s[2], r[s[2].name]);
    assert s[3].name in r && CellPasses(s[3], r[s[3].name]);
    assert s[4].name in r && CellPasses(s[4], r[s[4].name]);
    assert s[5].name in r && CellPasses(s[5], r[s[5].name]);
    assert s[6].name in r && CellPasses(s[6], r[s[6].name]);
    assert s[7].name in r && CellPasses(s[7], r[s[7].name]);
    assert s[8].name in r && CellPasses(s[8], r[s[8].name]);
    assert s[9].name in r && CellPasses(s[9], r[s[9].name]);
    assert s[10].name in r && CellPasses(s[10], r[s[10].name]);
    assert s[11].name in r && CellPasses(s[11], r[s[11].name]);
  }

  /** A row with every field `TransactionRowValid` names passes the transaction schema. */
  lemma TransactionRowAccepted(r: Row)
    requires TransactionRowValid(r)
    ensures RowPasses(TransactionSchema, r)
  {
    TransactionRowAcceptedFrom(r, 0, 4);
    TransactionRowAcceptedFrom(r, 4, 8);
    TransactionRowAcceptedFrom(r, 8, 12);
  }

  lemma TransactionRowAcceptedFrom(r: Row, lo: nat, hi: nat)
    requires TransactionRowValid(r) && lo <= hi <= |TransactionSchema| && hi - lo <= 4
    ensures forall k :: lo <= k < hi ==>
              TransactionSchema[k].name in r && CellPasses(TransactionSchema[k], r[TransactionSchema[k].name])
  {
    var s := TransactionSchema;
    forall k | lo <= k < hi ensures s[k].name in r && CellPasses(s[k], r[s[k].name]) {
      if k == lo {
      } else if k == lo + 1 {
      } else if k == lo + 2 {
      } else {
      }
    }
  }

  /** Only the identifier column must hold distinct values. */
  lemma TransactionUniqueColumn()
    ensures forall k :: 0 <= k < |TransactionSchema| && TransactionSchema[k].unique ==> k == 0
  {
  }

  /** The schema, checked column by column, says exactly what `TransactionTableValid` says. */
  lemma TransactionSchemaMeaning(df: Frame)
    requires WellFormed(df)
    ensures (forall k :: 0 <= k < |TransactionSchema| ==> ColumnHolds(TransactionSchema[k], df))
            <==> TransactionTableValid(df)
  {
    TransactionUniqueColumn();
    TableMeaning(TransactionSchema, df);
    TransactionRowsMeaning(df.rows);
    assert TransactionSchema[0].name == "transaction_id";
  }

  lemma TransactionRowsMeaning(rows: seq<Row>)
    ensures (forall i :: 0 <= i < |rows| ==> RowPasses(TransactionSchema, rows[i]))
            <==> (forall i :: 0 <= i < |rows| ==> TransactionRowValid(rows[i]))
  {
    forall i | 0 <= i < |rows|
      ensures RowPasses(TransactionSchema, rows[i]) <==> TransactionRowValid(rows[i])
    {
      if RowPasses(TransactionSchema, rows[i]) {
        TransactionRowPasses(rows[i]);
      }
      if TransactionRowValid(rows[i]) {
        TransactionRowAccepted(rows[i]);
      }
    }
  }

  /** `validate_transaction_data(df)`: the frame back unchanged, or the failures. */
  function ValidateTransactionData(df: Frame): (r: Result<Frame, set<Failure>>)
    requires WellFormed(df)
    ensures r.Ok? <==> TransactionTableValid(df)
    ensures r.Ok? ==> r.value == df && |r.value.rows| == |df.rows|
    ensures r.Err? ==> r.error != {}
  {
    TransactionSchemaMeaning(df);
    Validate(TransactionSchema, df)
  }

  /** A missing schema column fails transaction validation and is named among the failures. */
  lemma TransactionMissingColumn(df: Frame, c: string)
    requires WellFormed(df) && c in TransactionColumns && c !in df.columns
    ensures ValidateTransactionData(df) == Err(Failures(TransactionSchema, df))
    ensures ColumnMissing(c) in ValidateTransactionData(df).error
  {
    var k :| 0 <= k < |TransactionColumns| && TransactionColumns[k] == c;
    assert TransactionSchema[k].name == c;
    MissingColumnReported(TransactionSchema, df, k);
  }

  // ---------------------------------------------------------------------------
  // The news schema
  // ---------------------------------------------------------------------------

  const UrlColumn: ColumnSpec := ColumnSpec("url", StrKind, false, true, (c: Cell) => true)
  const TitleColumn: ColumnSpec := ColumnSpec("title", StrKind, false, false, (c: Cell) => c.Str? && |c.s| >= 10)
  const ContentColumn: ColumnSpec := ColumnSpec("content", StrKind, false, false, (c: Cell) => c.Str? && |c.s| >= 50)
  const NewsDateColumn: ColumnSpec := ColumnSpec("date", StrKind, false, false, (c: Cell) => true)
  const SourceColumn: ColumnSpec := ColumnSpec("source", StrKind, false, false, (c: Cell) => true)
  const KeywordColumn: ColumnSpec := ColumnSpec("keyword", StrKind, false, false, (c: Cell) => true)
  const ScrapedAtColumn: ColumnSpec := ColumnSpec("scraped_at", StrKind, false, false, (c: Cell) => true)

  const NewsSchema: seq<ColumnSpec> := [
    UrlColumn,
    TitleColumn,
    ContentColumn,
    NewsDateColumn,
    SourceColumn,
    KeywordColumn,
    ScrapedAtColumn
  ]

  const NewsColumns: seq<string> := ColumnNames(NewsSchema)

  /** A news row, field by field: non-null strings, a title of at least 10 and a body of at least 50 characters. */
  predicate NewsRowValid(r: Row) {
    && "url" in r && "title" in r && "content" in r && "date" in r
    && "source" in r && "keyword" in r && "scraped_at" in r
    && r["url"].Str? && r["title"].Str? && r["content"].Str? && r["date"].Str?
    && r["source"].Str? && r["keyword"].Str? && r["scraped_at"].Str?
    && |r["title"].s| >= 10
    && |r["content"].s| >= 50
  }

  /** A news table: every schema column present, every row valid, URLs distinct. */
  predicate NewsTableValid(df: Frame) {
    && (forall c :: c in NewsColumns ==> c in df.columns)
    && (forall i :: 0 <= i < |df.rows| ==> NewsRowValid(df.rows[i]))
    && UniqueValues(df, "url")
  }

  lemma NewsRowPasses(r: Row)
    requires RowPasses(NewsSchema, r)
    ensures NewsRowValid(r)
  {
    var s := NewsSchema;
    assert s[0].name in r && CellPasses(s[0], r[s[0].name]);
    assert s[1].name in r && CellPasses(s[1], r[s[1].name]);
    assert s[2].name in r && CellPasses(s[2], r[s[2].name]);
    assert s[3].name in r && CellPasses(s[3], r[s[3].name]);
    assert s[4].name in r && CellPasses(s[4], r[s[4].name]);
    assert s[5].name in r && CellPasses(s[5], r[s[5].name]);
    assert s[6].name in r && CellPasses(s[6], r[s[6].name]);
  }

  lemma NewsRowAccepted(r: Row)
    requires NewsRowValid(r)
    ensures RowPasses(NewsSchema, r)
  {
    NewsRowAcceptedFrom(r, 0, 4);
    NewsRowAcceptedFrom(r, 4, 7);
  }

  lemma NewsRowAcceptedFrom(r: Row, lo: nat, hi: nat)
    requires NewsRowValid(r) && lo <= hi <= |NewsSchema| && hi - lo <= 4
    ensures forall k :: lo <= k < hi ==> NewsSchema[k].name in r && CellPasses(NewsSchema[k], r[NewsSchema[k].name])
  {
    var s := NewsSchema;
    forall k | lo <= k < hi ensures s[k].name in r && CellPasses(s[k], r[s[k].name]) {
      if k == lo {
      } else if k == lo + 1 {
      } else if k == lo + 2 {
      } else {
      }
    }
  }

  /** Only the URL column must hold distinct values. */
  lemma NewsUniqueColumn()
    ensures forall k :: 0 <= k < |NewsSchema| && NewsSchema[k].unique ==> k == 0
  {
  }

  /** The news schema, checked column by column, says exactly what `NewsTableValid` says. */
  lemma NewsSchemaMeaning(df: Frame)
    requires WellFormed(df)
    ensures (forall k :: 0 <= k < |NewsSchema| ==> ColumnHolds(NewsSchema[k], df)) <==> NewsTableValid(df)
  {
    NewsUniqueColumn();
    TableMeaning(NewsSchema, df);
    forall i | 0 <= i < |df.rows| ensures RowPasses(NewsSchema, df.rows[i]) <==> NewsRowValid(df.rows[i]) {
      if RowPasses(NewsSchema, df.rows[i]) {
        NewsRowPasses(df.rows[i]);
      }
      if NewsRowValid(df.rows[i]) {
        NewsRowAccepted(df.rows[i]);
      }
    }
  }

  /** `validate_news_data(df)`: the frame back unchanged, or the failures. */
  function ValidateNewsData(df: Frame): (r: Result<Frame, set<Failure>>)
    requires WellFormed(df)
    ensures r.Ok? <==> NewsTableValid(df)
    ensures r.Ok? ==> r.value == df && |r.value.rows| == |df.rows|
    ensures r.Err? ==> r.error != {}
  {
    NewsSchemaMeaning(df);
    Validate(NewsSchema, df)
  }

  // ---------------------------------------------------------------------------
  // Extra columns
  // ---------------------------------------------------------------------------

  /** `df` with one more column whose cells are `cells`. */
  function WithColumn(df: Frame, name: string, cells: seq<Cell>): (r: Frame)
    requires |cells| == |df.rows| && name !in df.columns
    ensures |r.rows| == |df.rows|
  {
    Frame(df.columns + [name], seq(|df.rows|, i requires 0 <= i < |df.rows| => df.rows[i][name := cells[i]]))
  }

  /** Adding a column the schema does not name keeps a well-formed frame and leaves every schema column as it was. */
  lemma ColumnHoldsWithExtra(spec: ColumnSpec, df: Frame, name: string, cells: seq<Cell>)
    requires WellFormed(df) && |cells| == |df.rows| && name !in df.columns && spec.name != name
    ensures WellFormed(WithColumn(df, name, cells))
    ensures ColumnHolds(spec, WithColumn(df, name, cells)) <==> ColumnHolds(spec, df)
  {
    var e := WithColumn(df, name, cells);
    forall i | 0 <= i < |e.rows| ensures e.rows[i].Keys == set c | c in e.columns {
      assert e.rows[i].Keys == df.rows[i].Keys + {name};
    }
    if spec.name in df.columns {
      forall i | 0 <= i < |df.rows| ensures spec.name in df.rows[i] && e.rows[i][spec.name] == df.rows[i][spec.name] {
        RowHasColumn(df, i, spec.name);
      }
    }
  }

  /**
    Validation ignores columns outside the schema: adding one changes neither
    the verdict nor, on success, anything but the extra column.
  */
  lemma ExtraColumnIgnored(schema: seq<ColumnSpec>, df: Frame, name: string, cells: seq<Cell>)
    requires WellFormed(df) && |cells| == |df.rows| && name !in df.columns
    requires forall k :: 0 <= k < |schema| ==> schema[k].name != name
    ensures WellFormed(WithColumn(df, name, cells))
    ensures Validate(schema, WithColumn(df, name, cells)).Ok? == Validate(schema, df).Ok?
  {
    var e := WithColumn(df, name, cells);
    if schema == [] {
      forall i | 0 <= i < |e.rows| ensures e.rows[i].Keys == set c | c in e.columns {
        assert e.rows[i].Keys == df.rows[i].Keys + {name};
      }
    }
    forall k | 0 <= k < |schema| ensures ColumnHolds(schema[k], e) <==> ColumnHolds(schema[k], df) {
      ColumnHoldsWithExtra(schema[k], df, name, cells);
    }
  }
}

=== FILE: Wrappers.dfy ===
/** Failure-carrying return values, standing in for the exceptions the Python source raises. */
module Wrappers {

  datatype Option<+T> = None | Some(value: T)

  datatype Result<+R, +E> = Ok(value: R) | Err(error: E)
}
